=== FILE: README.md ===
# Flashbots bundle client: protocol-layer model

A Dafny model of the request/response layer of a Go client for a Flashbots
relay (`flashbot.go`). The client submits bundles of signed transactions
(`eth_sendBundle`), simulates them (`eth_callBundle`) and fetches bundle
statistics (`flashbots_getBundleStats`) over JSON-RPC-over-HTTP. Every request
is authenticated by an `X-Flashbots-Signature` header.

The model is pure and functional. Requests, params, replies and errors are
immutable datatypes. Each of the three calls is a function that returns its
outcome, either a value or an `Error`. It also returns the single POST it
made, or `None` when it failed before reaching the transport.

The following are supplied as function values in an `Env`:
- the crypto primitives (Keccak-256, `accounts.TextHash`, ECDSA signing, address derivation);
- the JSON text rendering and parsing;
- the check that a URL parses;
- the HTTP round trip.

Modules:
- `Wrappers`: the `Option` and `Result` types that carry decoding failures and call errors.
- `Hex`: the integer widths (`uint64`, and Go's 64-bit `int`), and go-ethereum's `hexutil.EncodeUint64` and `hexutil.Encode`, each with a decoder that reads it back.
- `Json`: the JSON tree, and Go's rule for matching object keys to struct fields. A key matches a field when the two agree up to case, and the last matching key wins. It also has the readers of a Go `int` or `string` field.
- `Protocol`: `Params`, `Request`, the three method templates, and the request each call builds.
- `Codec` and `Wire`: the `omitempty` encoding of requests, the reading that inverts it, and what each call puts on the wire.
- `Messages`: the reply structs, and which JSON member each reply's error is read from.
- `Failures`: one error kind per error return of the client.
- `Classifier`: `parseResp` and the error gate of `GetBundleStats`.
- `Signer`: `SetKeys`, the checksummed address (`Address.Hex`, EIP-55), and the signature header.
- `Client`: `New`, `relayURLDefault`, `req`, `SendBundle`, `CallBundle` and `GetBundleStats`, and `GetBundleStatsCorrected`, the stats call with its error read from "error".
- `Scenarios`: properties of whole calls.

Points of the code that the model keeps as written:
- A failed reply from `parseResp` is one error kind, `RelayRejected`. It carries the relay error, the block number and the first transaction result, whether the relay or the first transaction reported the failure.
- The non-2xx error carries the request's method name as well as the status and the body.
- `GetBundleStats` gates on the `Code` of the `Error` embedded in `ResultBundleStats`. That embedding has no JSON tag, so the code is read from a top-level "code" member, not from the "error" member that `parseResp` reads; see Findings.

## Model

| member | source | states |
|---|---|---|
| Hex.QuantityDigits | flashbot.go:150 | the digits of a block number are lower-case hex with no superfluous leading zero; a single digit exactly when the number is below 16 |
| Hex.ValueOfQuantityDigits | flashbot.go:150 | the digits denote exactly the number that was rendered |
| Hex.EncodeUint64 | flashbot.go:150 | a block number is sent as "0x" followed by its minimal lower-case hex digits, which denote the number |
| Hex.EncodeUint64Canonical | flashbot.go:150 | every lower-case quantity a reader accepts is the encoder's output for its value, so the encoding is the canonical one |
| Hex.EncodeUint64Injective | flashbot.go:150 | distinct block numbers go on the wire as distinct strings |
| Hex.BytesOfHexOfBytes | flashbot.go:343 | the hex text of a byte string decodes back to the same bytes |
| Hex.EncodeBytes | flashbot.go:351 | `hexutil.Encode` gives "0x" and two lower-case digits per byte; it is ASCII and decodes back to the bytes |
| Json.FindIsLastMatch | flashbot.go:212 | the member a struct field is read from is the last one whose key matches the field's name up to case, and there is none when no key matches (a trailing null under a repeated key: see Left out) |
| Json.FindPrependOther | flashbot.go:212 | members placed before the others whose keys match nothing never change which value a field is read from |
| Json.FindDropOther | flashbot.go:212 | a member whose key does not match a field can be removed from anywhere in the object without changing the value read for that field |
| Protocol.SendBundleRequest | flashbot.go:148-151 | an `eth_sendBundle` JSON-RPC 2.0 call with id 1 and one params object holding the transactions and the hex block number, which reads back as the caller's number; no state block, no bundle hash |
| Protocol.CallBundleRequest | flashbot.go:164-169 | an `eth_callBundle` call with one params object holding the transactions, the placeholder block 100000000000000 in hex and state block "latest" |
| Protocol.BundleStatsRequest | flashbot.go:183-185 | a `flashbots_getBundleStats` call with one params object holding the bundle hash and the hex block number, and no transactions |
| Protocol.CallBlockDummyOnWire | flashbot.go:166-169 | the simulation's placeholder block goes on the wire as "0x5af3107a4000" |
| Codec.OmitEmpty | flashbot.go:23-35 | `omitempty` emits no empty value, emits only candidate members, and emits every candidate whose value is not empty |
| Codec.OmitEmptyAppend | flashbot.go:23-35 | `omitempty` decides member by member: a single member is kept exactly when its value is not empty, and the output for a concatenation is the outputs for its parts in the same order, so the kept members keep their declaration order and appear once each |
| Codec.FindOmitEmpty | flashbot.go:23-35 | with distinct keys, a field is found in the encoded object exactly when its value is non-empty, and it carries that value |
| Codec.ParamsOmitEmpty | flashbot.go:23-28 | each of txs, blockNumber, stateBlockNumber and bundleHash is emitted exactly when non-empty and carries its value; no null or empty value appears |
| Codec.RequestOmitEmpty | flashbot.go:30-35 | each of jsonrpc, id, method and params is emitted exactly when non-zero and carries its value |
| Codec.DecodeStringItems | flashbot.go:24 | the encoded transaction list reads back as the same list |
| Codec.ParamsRoundTrip | flashbot.go:23-28 | reading an encoded params object gives back every field |
| Codec.RequestRoundTrip | flashbot.go:30-35 | reading an encoded request gives back the request |
| Wire.SendBundleOnWire | flashbot.go:148-151 | the submit params always carry blockNumber, carry txs exactly when there are transactions, and never carry stateBlockNumber or bundleHash |
| Wire.CallBundleOnWire | flashbot.go:164-169 | the simulate params always carry the placeholder blockNumber and stateBlockNumber "latest", and never carry bundleHash |
| Wire.BundleStatsOnWire | flashbot.go:183-185 | the stats params always carry blockNumber, carry bundleHash exactly when it is non-empty, and never carry txs or stateBlockNumber |
| Wire.EnvelopeOnWire | flashbot.go:83-108 | every call goes out with jsonrpc "2.0", id 1, its method and a params array of exactly one object |
| Json.ReadInt | flashbot.go:73-76 | a Go `int` field is 0 when its member is absent or null, is the member's number when that fits in 64 bits, and is a decoding failure for an out-of-range number or a non-number |
| Json.ReadString | flashbot.go:73-76 | a Go `string` field is "" when its member is absent or null, is the member's string when it is one, and is a decoding failure otherwise |
| Messages.DecodeResponse | flashbot.go:207-215 | null decodes to the zero reply and a non-object fails; an object decodes exactly when its "error" and "result" members do; the decoded error is the number under "code" and the string under "message" of the "error" object, or the zero error when "error" is absent or null; the result is the decoder's reading of the "result" member, or the empty result |
| Messages.DecodeResponseReadsTaggedMembers | flashbot.go:78-81 | a `Response` depends only on the "error" and "result" members: members under any other key, before or after them, never change it |
| Messages.DecodeStatsAsWritten | flashbot.go:192-197 | null decodes to the zero reply and a non-object fails; an object decodes exactly when its top-level "code", "message" and "result" members do; the decoded error is the top-level number under "code" and string under "message", each zero when absent or null; the stats are the decoder's reading of "result", or zeroed stats |
| Messages.DecodeStats | flashbot.go:78-81 | the corrected stats reading, as `Response` reads its error: null decodes to the zero reply and a non-object fails; an object decodes exactly when its "error" and "result" members do; the error is the number under "code" and the string under "message" of the "error" object, or the zero error when "error" is absent or null; the stats are the decoder's reading of "result", or zeroed stats |
| Messages.DecodeStatsAsWrittenReadsPromotedMembers | flashbot.go:50-53 | a `ResultBundleStats` as declared depends only on the "code", "message" and "result" members: members under any other key, before or after them, never change it |
| Messages.StatsErrorMemberIgnored | flashbot.go:50-53 | wherever an "error" member sits and whatever it holds, the declared `ResultBundleStats` decodes as if it were absent |
| Messages.ErrorReplyDecoded | flashbot.go:78-81 | a JSON-RPC error reply decodes into a `Response` carrying exactly the relay's code and message |
| Messages.ResultReplyDecoded | flashbot.go:78-81 | a reply with only a result decodes into that result with the zero error |
| Messages.ErrorReplyLostAsWritten | flashbot.go:50-53 | decoded into `ResultBundleStats` as declared, an error reply yields the zero error and zero stats |
| Messages.EnvelopedErrorReplyDecoded | flashbot.go:50-53 | the relay's full error reply, with "jsonrpc" and "id" ahead of "error", decodes into `Response` with the relay's error and into the declared `ResultBundleStats` with no error |
| Classifier.FirstTx | flashbot.go:219-220 | the transaction reported in the error is the first result, present exactly when there are results |
| Classifier.Classify | flashbot.go:217-225 | the call fails exactly when the relay error code is non-zero or the first transaction result has an error; on failure the error carries the relay error, the block and the first result; on success the reply is returned unchanged |
| Classifier.RelayErrorWins | flashbot.go:217 | a non-zero relay error code fails the call whatever the transaction results contain |
| Classifier.OnlyFirstResultInspected | flashbot.go:217 | results after the first never change whether the call succeeds |
| Classifier.ParseResp | flashbot.go:207-226 | an unreadable reply is a decoding error; otherwise the decoded reply is classified |
| Classifier.BundleErrorReplyCaught | flashbot.go:207-217 | a JSON-RPC error reply to a bundle call fails with the relay's error |
| Classifier.StatsGate | flashbot.go:199-203 | the stats call succeeds exactly when the error code is 0, and then returns the decoded reply unchanged |
| Classifier.StatsFromBodyAsWritten | flashbot.go:192-203 | an unreadable stats reply is a decoding error; otherwise the reply decoded as the declared struct passes the gate, so the call succeeds exactly when its top-level code is 0 |
| Classifier.StatsFromBody | flashbot.go:192-203 | the corrected stats reading: an unreadable reply is a decoding error; otherwise the reply decoded with its error under "error" passes the gate, so the call succeeds exactly when that code is 0 |
| Classifier.StatsErrorReplyMissedAsWritten | flashbot.go:192-203 | for a JSON-RPC error reply, the stats call as declared succeeds with zeroed stats, while reading the error from "error" fails it with the relay's error |
| Signer.SetKeys | flashbot.go:132-142 | the installed key material is the key and the address derived from it |
| Signer.ApplyChecksum | flashbot.go:350 | the checksum only changes the case of letter digits |
| Signer.AddressHex | flashbot.go:350 | the address is rendered as "0x" and 40 hex digits that decode back to the address and contain no ':' |
| Signer.SignPayload | flashbot.go:338-352 | without a key signing fails with "key not set"; a failing signer fails; otherwise the header is the installed address, ':' and the hex signature of the hashed payload |
| Signer.HeaderHasOneColon | flashbot.go:350-351 | the header contains exactly one ':' |
| Signer.HeaderRoundTrip | flashbot.go:350-351 | splitting the header at its ':' gives back the signer's address and the signature |
| Signer.HeaderNamesSigner | flashbot.go:138-140 | the address half of every header is the address `SetKeys` derived from the key |
| Client.New | flashbot.go:119-130 | keys are installed exactly when a private key is given, with the address derived from it; network id and URL are kept |
| Client.RelayUrlDefault | flashbot.go:354-363 | network 1 maps to the mainnet relay, 5 to the Goerli relay, and every other id is an unsupported-network error |
| Client.ResolveUrl | flashbot.go:233-238 | a non-empty configured URL is used verbatim; otherwise the network's default is used; a resolved URL is never empty |
| Client.StatusClass | flashbot.go:263 | Go's truncating `status / 100` is 2 exactly for statuses 200 to 299 |
| Client.ReadReply | flashbot.go:254-275 | the body is returned exactly when the request went through, the body was read, the status is 2xx and the body closed; a non-2xx status yields the status, the body and the method; no reply is a transport error, an unread body a read error, and a failed close after a 2xx status a close error |
| Client.Req | flashbot.go:228-276 | the transport is reached exactly when URL resolution, URL parsing and signing all succeed, with that URL, that header and the encoded request; a URL resolution failure, an unparsable URL, a missing key and a failing signer each end the call with their own error before any POST, in that order |
| Client.SendBundle | flashbot.go:144-159 | posts the submit request; a successful outcome has no relay error and no error on the first transaction |
| Client.CallBundle | flashbot.go:161-177 | posts the simulate request and classifies the reply against the placeholder block |
| Client.GetBundleStats | flashbot.go:179-205 | posts the stats request; a failure of `req` is returned unchanged; otherwise the outcome is the body read as the declared struct and gated on its top-level code, so success means that code is 0 |
| Client.GetBundleStatsCorrected | flashbot.go:179-205 | the same call with the corrected reading: the outcome is the body gated on the code of its "error" member |
| Scenarios.UnsupportedNetworkFailsFirst | flashbot.go:233-238 | with no URL configured and a network other than 1 or 5, all three calls fail with the network error and post nothing, whether or not a key is set |
| Scenarios.MissingKeyNeverPosts | flashbot.go:339-341 | without a key, no call posts anything and every call fails |
| Scenarios.ConfiguredUrlUsed | flashbot.go:233 | with a configured URL, the POST of each of the three calls goes to that URL whatever the network id |
| Scenarios.PostNamesSigner | flashbot.go:243-249 | the header of the POST of each of the three calls names the address derived from the configured key |
| Scenarios.ReqNamesSigner | flashbot.go:243-249 | whatever the request, a POST made by `req` carries a header naming the address derived from the configured key |
| Scenarios.SubmitAcknowledged | flashbot.go:144-159 | a submit answered with 200 and an error-free result succeeds with that result, after one POST to the mainnet relay |
| Scenarios.SubmitRejectedByStatus | flashbot.go:263-268 | a submit answered with a non-2xx status fails with that status and body after a single POST |
| Scenarios.StatsRelayErrorMissed | flashbot.go:192-203 | a relay error reply to the stats call succeeds with the zero error and zeroed stats, as the code is written |
| Scenarios.StatsRelayErrorSurfaces | flashbot.go:199-203 | with the error read from "error", a relay error reply fails the stats call with the relay's error |

## Findings

| source | as written | input that shows it | evidently intended | confidence | as-written member | corrected member |
|---|---|---|---|---|---|---|
| flashbot.go:50-53 | `ResultBundleStats` embeds `Error` without a JSON tag. Its `Code` and `Message` are therefore promoted and read from top-level "code" and "message" keys, and a JSON-RPC error object under "error" matches no field. `GetBundleStats` then reports success with zeroed stats. | the reply `{"error":{"code":-32000,"message":"m"}}` to `flashbots_getBundleStats` | read the error from the "error" member, as `Response` does with its `json:"error"` tag (line 79), so that a non-zero relay code fails the call | medium (not executed; relies on encoding/json's rules for embedded structs) | Classifier.StatsErrorReplyMissedAsWritten | Scenarios.StatsRelayErrorSurfaces |

The as-written reading is `Messages.DecodeStatsAsWritten`, used by `Classifier.StatsFromBodyAsWritten` and `Client.GetBundleStats`; `Scenarios.StatsRelayErrorMissed` shows the whole call succeeding on an error reply. The corrected reading is `Messages.DecodeStats`, used by `Classifier.StatsFromBody` and `Client.GetBundleStatsCorrected`.

## Left out

- HTTP transport: the `http.Client`, its three-second timeout, setting the headers and closing the body happen inside the `transport` function of `Env`. Its reply is one of three things: no reply, an unreadable body, or a status, body and close result. Only the result of closing is modelled, as `CloseFailed`.
- The second `ReadAll` in the non-2xx branch reads a body that is already drained. If that read fails, the source's error degrades to status only. The model always reports the status and the first body read.
- Crypto: Keccak-256, `accounts.TextHash`, ECDSA `crypto.Sign` and public-key-to-address derivation are opaque functions. Only how their results are combined is modelled.
- `SetKeys`: the `*ecdsa.PublicKey` cast cannot fail for an `ecdsa.PrivateKey`, so `SetKeys` and `New` are total.
- `json.Marshal` of a `Request` cannot fail, since it holds only strings and integers. Rendering the tree to text is the `render` function of `Env`.
- JSON parsing, and decoding of the `result` member into `Result`, `TxResult` and `BundleStats`, are the `Decoders` functions. The model decodes only the relay `Error`'s "code" and "message". The first transaction's `Error` string, which the `parseResp` gate also reads, is decoded inside `Decoders.result`.
- JSON numbers are integers only. Key matching folds ASCII case only, where Go's `EqualFold` also folds some non-ASCII letters.
- Json.Find: under a repeated key the model reads the last matching member. Go differs in two cases. It merges two objects under the same key. And a trailing null leaves a string, int or struct field at the earlier value, where the model reads the null as the zero value; `{"code":5,"code":null}` fails `GetBundleStats` in Go but passes in the model.
- `BundleStats`' three `time.Time` fields.
- `NewSignedTXLegacy` and `NewSignedTX` are left out. They are thin wrappers over go-ethereum transaction signing and `big.Int`.
- Error message text and `errors.Wrap` context strings. Errors are modelled by kind and payload.
- The global request templates share their `Params` slices across calls, which is a data race under concurrent use. Each call overwrites the same fields, so the model builds each request fresh.
- `netID` is converted from `int64` to `int`, which is the identity on 64-bit platforms. It is modelled as `int`.

=== FILE: classifier.dfy ===
/**
 * Response classification: `parseResp` for `eth_sendBundle`/`eth_callBundle`
 * replies and the error gate of `GetBundleStats`.
 */
module Classifier {
  import opened Wrappers
  import opened Hex
  import opened Json
  import opened Messages
  import opened Failures

  /** The relay reported a JSON-RPC error. */
  predicate RelayFailed(rr: Response) {
    rr.error.code != 0
  }

  /** The first transaction of the bundle carries an error; later ones are not looked at. */
  predicate FirstTxFailed(rr: Response) {
    |rr.result.results| > 0 && rr.result.results[0].error != ""
  }

  /** The first transaction result, if there is one; it goes into the error report. */
  function FirstTx(results: seq<TxResult>): (r: Option<TxResult>)
    ensures r.Some? <==> |results| > 0
    ensures r.Some? ==> r.value == results[0]
  {
    if |results| == 0 then None else Some(results[0])
  }

  /** The decision `parseResp` makes on an already decoded reply. */
  function Classify(rr: Response, blockNum: uint64): (r: Result<Response, Error>)
    ensures r.Success? <==> !RelayFailed(rr) && !FirstTxFailed(rr)
    ensures r.Success? ==> r.value == rr
    ensures r.Failure? ==> r.error == RelayRejected(rr.error, blockNum, FirstTx(rr.result.results))
  {
    if RelayFailed(rr) || FirstTxFailed(rr) then
      Failure(RelayRejected(rr.error, blockNum, FirstTx(rr.result.results)))
    else
      Success(rr)
  }

  /** A relay error fails the call whatever the transaction results say. */
  lemma RelayErrorWins(rr: Response, results: seq<TxResult>, blockNum: uint64)
    requires rr.error.code != 0
    ensures Classify(rr.(result := rr.result.(results := results)), blockNum).Failure?
  {
  }

  /** Only the first transaction result is inspected: what follows it never changes the verdict. */
  lemma OnlyFirstResultInspected(rr: Response, later: seq<TxResult>, blockNum: uint64)
    requires |rr.result.results| > 0
    ensures Classify(rr.(result := rr.result.(results := [rr.result.results[0]] + later)), blockNum).Success?
            == Classify(rr, blockNum).Success?
  {
  }

  /** `parseResp`: decode the reply body, then classify it. */
  function ParseResp(dec: Decoders, body: Bytes, blockNum: uint64): (r: Result<Response, Error>)
    ensures dec.parse(body).None? ==> r == Failure(MalformedResponse)
    ensures dec.parse(body).Some? ==>
              match DecodeResponse(dec.parse(body).value, dec)
              case None => r == Failure(MalformedResponse)
              case Some(rr) => r == Classify(rr, blockNum)
  {
    var j :- dec.parse(body).ToResultOr(MalformedResponse);
    var rr :- DecodeResponse(j, dec).ToResultOr(MalformedResponse);
    Classify(rr, blockNum)
  }

  /** The error gate of `GetBundleStats`: only the top-level error code decides. */
  function StatsGate(rr: ResultBundleStats): (r: Result<ResultBundleStats, Error>)
    ensures r.Success? <==> rr.error.code == 0
    ensures r.Success? ==> r.value == rr
    ensures r.Failure? ==> r.error == StatsRejected(rr.error)
  {
    if rr.error.code != 0 then Failure(StatsRejected(rr.error)) else Success(rr)
  }

  /** The stats reply read as `GetBundleStats` is declared to read it: decode, then gate. */
  function StatsFromBodyAsWritten(dec: Decoders, body: Bytes): (r: Result<ResultBundleStats, Error>)
    ensures dec.parse(body).None? ==> r == Failure(MalformedResponse)
    ensures dec.parse(body).Some? ==>
              match DecodeStatsAsWritten(dec.parse(body).value, dec)
              case None => r == Failure(MalformedResponse)
              case Some(rr) => r == StatsGate(rr)
    ensures r.Success? ==> r.value.error.code == 0
  {
    var j :- dec.parse(body).ToResultOr(MalformedResponse);
    var rr :- DecodeStatsAsWritten(j, dec).ToResultOr(MalformedResponse);
    StatsGate(rr)
  }

  /** The stats reply read with its error taken from the "error" member. */
  function StatsFromBody(dec: Decoders, body: Bytes): (r: Result<ResultBundleStats, Error>)
    ensures dec.parse(body).None? ==> r == Failure(MalformedResponse)
    ensures dec.parse(body).Some? ==>
              match DecodeStats(dec.parse(body).value, dec)
              case None => r == Failure(MalformedResponse)
              case Some(rr) => r == StatsGate(rr)
    ensures r.Success? ==> r.value.error.code == 0
  {
    var j :- dec.parse(body).ToResultOr(MalformedResponse);
    var rr :- DecodeStats(j, dec).ToResultOr(MalformedResponse);
    StatsGate(rr)
  }

  /**
   * A relay error reply to a stats request: read as declared, the call
   * succeeds with zeroed stats; read from "error", it fails with the relay's error.
   */
  lemma StatsErrorReplyMissedAsWritten(dec: Decoders, body: Bytes, e: RelayError)
    requires dec.parse(body) == Some(ErrorReply(e))
    requires e.code != 0 && Int64Min <= e.code <= Int64Max
    ensures StatsFromBodyAsWritten(dec, body) == Success(ResultBundleStats(NoError, EmptyStats))
    ensures StatsFromBody(dec, body) == Failure(StatsRejected(e))
  {
    ErrorReplyLostAsWritten(e, dec);
    ErrorReplyDecoded(e, dec);
  }

  /** The same relay error reply to a bundle request is caught by `parseResp`. */
  lemma BundleErrorReplyCaught(dec: Decoders, body: Bytes, e: RelayError, blockNum: uint64)
    requires dec.parse(body) == Some(ErrorReply(e))
    requires e.code != 0 && Int64Min <= e.code <= Int64Max
    ensures ParseResp(dec, body, blockNum) == Failure(RelayRejected(e, blockNum, None))
  {
    ErrorReplyDecoded(e, dec);
  }
}

=== FILE: client.dfy ===
/**
 * The `Flashbot` client: configuration (`New`, relay URL resolution), the
 * request pipeline `req`, and the three calls built on it. The HTTP round
 * trip and the JSON text layer are supplied as functions in an `Env`, and a
 * call reports whether it reached the transport at all.
 */
module Client {
  import opened Wrappers
  import opened Hex
  import opened Json
  import opened Protocol
  import opened Codec
  import opened Messages
  import opened Failures
  import opened Classifier
  import opened Signer

  /** A configured client: network id, optional key material, optional relay URL ("" for none). */
  datatype Flashbot = Flashbot(netId: int, keys: Option<Keys>, url: string)

  /** `New`: keys are installed exactly when a private key is given. */
  function New(c: Crypto, netId: int, prvKey: Option<PrivateKey>, url: string): (fb: Flashbot)
    ensures fb.netId == netId && fb.url == url
    ensures fb.keys.Some? <==> prvKey.Some?
    ensures prvKey.Some? ==> fb.keys.value.prvKey == prvKey.value
                             && fb.keys.value.publicAddr == c.pubkeyToAddress(prvKey.value)
  {
    match prvKey
    case None => Flashbot(netId, None, url)
    case Some(k) => Flashbot(netId, Some(SetKeys(c, k)), url)
  }

  const MainnetRelay: string := "https://relay.flashbots.net"
  const GoerliRelay: string := "https://relay-goerli.flashbots.net"

  /** `relayURLDefault`: the relay for mainnet (1) and Goerli (5); any other network is unsupported. */
  function RelayUrlDefault(id: int): (r: Result<string, Error>)
    ensures r.Success? <==> id == 1 || id == 5
    ensures id == 1 ==> r == Success(MainnetRelay)
    ensures id == 5 ==> r == Success(GoerliRelay)
    ensures r.Failure? ==> r.error == UnsupportedNetwork(id)
  {
    if id == 1 then Success(MainnetRelay)
    else if id == 5 then Success(GoerliRelay)
    else Failure(UnsupportedNetwork(id))
  }

  /** The relay a call goes to: the configured URL verbatim, or the network's default. */
  function ResolveUrl(netId: int, url: string): (r: Result<string, Error>)
    ensures url != "" ==> r == Success(url)
    ensures url == "" ==> r == RelayUrlDefault(netId)
    ensures r.Success? ==> r.value != ""
  {
    if url == "" then RelayUrlDefault(netId) else Success(url)
  }

  /** What the HTTP client hands back for one POST. */
  datatype HttpReply =
    | NoReply                                        // the request failed: connection, timeout
    | Reply(status: int, body: Option<Bytes>, closed: bool)  // body None: reading failed; closed: Close succeeded

  /** One POST: relay URL, signature header value, request body. */
  datatype Post = Post(url: string, signature: string, payload: Bytes)

  /**
   * Everything a call needs from outside: the crypto primitives, the JSON text
   * rendering of a request tree, whether a URL parses (`http.NewRequest`), the
   * HTTP round trip with its three-second timeout, and the reply decoders.
   */
  datatype Env = Env(
    crypto: Crypto,
    render: Json -> Bytes,
    validUrl: string -> bool,
    transport: Post -> HttpReply,
    decoders: Decoders)

  /** A call's outcome, and the POST it made if it reached the transport; there is at most one. */
  datatype Exchange<T> = Exchange(outcome: Result<T, Error>, posted: Option<Post>)

  /** Go's `status / 100`, which truncates toward zero. */
  function StatusClass(status: int): (c: int)
    ensures c == 2 <==> 200 <= status < 300
  {
    if status >= 0 then status / 100 else -((-status) / 100)
  }

  /** The checks `req` applies to the HTTP reply, in order. */
  function ReadReply(reply: HttpReply, methodName: string): (r: Result<Bytes, Error>)
    ensures r.Success? <==> reply.Reply? && reply.body.Some? && 200 <= reply.status < 300 && reply.closed
    ensures r.Success? ==> r.value == reply.body.value
    ensures reply.NoReply? ==> r == Failure(TransportFailed)
    ensures reply.Reply? && reply.body.None? ==> r == Failure(ReadFailed)
    ensures reply.Reply? && reply.body.Some? && !(200 <= reply.status < 300) ==>
              r == Failure(BadStatus(reply.status, reply.body.value, methodName))
    ensures reply.Reply? && reply.body.Some? && 200 <= reply.status < 300 && !reply.closed ==>
              r == Failure(CloseFailed)
  {
    match reply
    case NoReply => Failure(TransportFailed)
    case Reply(status, body, closed) =>
      match body
      case None => Failure(ReadFailed)
      case Some(b) =>
        if StatusClass(status) != 2 then Failure(BadStatus(status, b, methodName))
        else if !closed then Failure(CloseFailed)
        else Success(b)
  }

  /** The request body: the rendering of the request's `omitempty` tree. */
  function Payload(env: Env, r: Request): Bytes {
    env.render(EncodeRequest(r))
  }

  /**
   * `req`: marshal, resolve the relay URL, build the HTTP request, sign, send,
   * check the reply. Every configuration failure happens before the POST.
   */
  function Req(fb: Flashbot, env: Env, r: Request, url: string): (x: Exchange<Bytes>)
    ensures x.posted.Some? <==>
              ResolveUrl(fb.netId, url).Success? && env.validUrl(ResolveUrl(fb.netId, url).value)
              && SignPayload(env.crypto, fb.keys, Payload(env, r)).Success?
    ensures x.posted.Some? ==>
              x.posted.value == Post(ResolveUrl(fb.netId, url).value,
                                     SignPayload(env.crypto, fb.keys, Payload(env, r)).value,
                                     Payload(env, r))
              && x.outcome == ReadReply(env.transport(x.posted.value), r.methodName)
    ensures x.posted.None? ==> x.outcome.Failure?
    ensures url == "" && fb.netId != 1 && fb.netId != 5 ==> x == Exchange(Failure(UnsupportedNetwork(fb.netId)), None)
    ensures ResolveUrl(fb.netId, url).Failure? ==> x == Exchange(Failure(ResolveUrl(fb.netId, url).error), None)
    ensures ResolveUrl(fb.netId, url).Success? && !env.validUrl(ResolveUrl(fb.netId, url).value) ==>
              x == Exchange(Failure(InvalidRelayUrl(ResolveUrl(fb.netId, url).value)), None)
    ensures ResolveUrl(fb.netId, url).Success? && env.validUrl(ResolveUrl(fb.netId, url).value) && fb.keys.None? ==>
              x == Exchange(Failure(KeyNotSet), None)
    ensures ResolveUrl(fb.netId, url).Success? && env.validUrl(ResolveUrl(fb.netId, url).value)
            && SignPayload(env.crypto, fb.keys, Payload(env, r)).Failure? ==>
              x == Exchange(Failure(SignPayload(env.crypto, fb.keys, Payload(env, r)).error), None)
  {
    var payload := Payload(env, r);
    match ResolveUrl(fb.netId, url)
    case Failure(e) => Exchange(Failure(e), None)
    case Success(target) =>
      if !env.validUrl(target) then Exchange(Failure(InvalidRelayUrl(target)), None)
      else
        match SignPayload(env.crypto, fb.keys, payload)
        case Failure(e) => Exchange(Failure(e), None)
        case Success(signature) =>
          var post := Post(target, signature, payload);
          Exchange(ReadReply(env.transport(post), r.methodName), Some(post))
  }

  /** `SendBundle`: submit `txs` for inclusion in block `blockNumber`. */
  function SendBundle(fb: Flashbot, env: Env, txs: seq<string>, blockNumber: uint64): (x: Exchange<Response>)
    ensures x.posted == Req(fb, env, SendBundleRequest(txs, blockNumber), fb.url).posted
    ensures Req(fb, env, SendBundleRequest(txs, blockNumber), fb.url).outcome.Failure? ==> x.outcome == Failure(Req(fb, env, SendBundleRequest(txs, blockNumber), fb.url).outcome.error)
    ensures x.outcome.Success? ==>
              && Req(fb, env, SendBundleRequest(txs, blockNumber), fb.url).outcome.Success?
              && !RelayFailed(x.outcome.value) && !FirstTxFailed(x.outcome.value)
    ensures Req(fb, env, SendBundleRequest(txs, blockNumber), fb.url).outcome.Success? ==>
              x.outcome == ParseResp(env.decoders, Req(fb, env, SendBundleRequest(txs, blockNumber), fb.url).outcome.value, blockNumber)
  {
    var sent := Req(fb, env, SendBundleRequest(txs, blockNumber), fb.url);
    match sent.outcome
    case Failure(e) => Exchange(Failure(e), sent.posted)
    case Success(body) => Exchange(ParseResp(env.decoders, body, blockNumber), sent.posted)
  }

  /** `CallBundle`: simulate `txs` on the latest state, under the placeholder block number. */
  function CallBundle(fb: Flashbot, env: Env, txs: seq<string>): (x: Exchange<Response>)
    ensures x.posted == Req(fb, env, CallBundleRequest(txs), fb.url).posted
    ensures Req(fb, env, CallBundleRequest(txs), fb.url).outcome.Failure? ==> x.outcome == Failure(Req(fb, env, CallBundleRequest(txs), fb.url).outcome.error)
    ensures x.outcome.Success? ==>
              && Req(fb, env, CallBundleRequest(txs), fb.url).outcome.Success?
              && !RelayFailed(x.outcome.value) && !FirstTxFailed(x.outcome.value)
    ensures Req(fb, env, CallBundleRequest(txs), fb.url).outcome.Success? ==>
              x.outcome == ParseResp(env.decoders, Req(fb, env, CallBundleRequest(txs), fb.url).outcome.value, CallBlockDummy)
  {
    var sent := Req(fb, env, CallBundleRequest(txs), fb.url);
    match sent.outcome
    case Failure(e) => Exchange(Failure(e), sent.posted)
    case Success(body) => Exchange(ParseResp(env.decoders, body, CallBlockDummy), sent.posted)
  }

  /**
   * `GetBundleStats`: the relay's record of bundle `bundleHash`, with the reply
   * decoded into `ResultBundleStats` as declared, so the gate sees the
   * top-level "code" member.
   */
  function GetBundleStats(fb: Flashbot, env: Env, bundleHash: string, blockNumber: uint64): (x: Exchange<ResultBundleStats>)
    ensures x.posted == Req(fb, env, BundleStatsRequest(bundleHash, blockNumber), fb.url).posted
    ensures Req(fb, env, BundleStatsRequest(bundleHash, blockNumber), fb.url).outcome.Failure? ==> x.outcome == Failure(Req(fb, env, BundleStatsRequest(bundleHash, blockNumber), fb.url).outcome.error)
    ensures x.outcome.Success? ==>
              && Req(fb, env, BundleStatsRequest(bundleHash, blockNumber), fb.url).outcome.Success?
              && x.outcome.value.error.code == 0
    ensures Req(fb, env, BundleStatsRequest(bundleHash, blockNumber), fb.url).outcome.Success? ==>
              x.outcome == StatsFromBodyAsWritten(env.decoders, Req(fb, env, BundleStatsRequest(bundleHash, blockNumber), fb.url).outcome.value)
  {
    var sent := Req(fb, env, BundleStatsRequest(bundleHash, blockNumber), fb.url);
    match sent.outcome
    case Failure(e) => Exchange(Failure(e), sent.posted)
    case Success(body) => Exchange(StatsFromBodyAsWritten(env.decoders, body), sent.posted)
  }

  /** `GetBundleStats` with the reply's error read from the "error" member, as `parseResp` reads it. */
  function GetBundleStatsCorrected(fb: Flashbot, env: Env, bundleHash: string, blockNumber: uint64): (x: Exchange<ResultBundleStats>)
    ensures x.posted == Req(fb, env, BundleStatsRequest(bundleHash, blockNumber), fb.url).posted
    ensures Req(fb, env, BundleStatsRequest(bundleHash, blockNumber), fb.url).outcome.Failure? ==> x.outcome == Failure(Req(fb, env, BundleStatsRequest(bundleHash, blockNumber), fb.url).outcome.error)
    ensures x.outcome.Success? ==>
              && Req(fb, env, BundleStatsRequest(bundleHash, blockNumber), fb.url).outcome.Success?
              && x.outcome.value.error.code == 0
    ensures Req(fb, env, BundleStatsRequest(bundleHash, blockNumber), fb.url).outcome.Success? ==>
              x.outcome == StatsFromBody(env.decoders, Req(fb, env, BundleStatsRequest(bundleHash, blockNumber), fb.url).outcome.value)
  {
    var sent := Req(fb, env, BundleStatsRequest(bundleHash, blockNumber), fb.url);
    match sent.outcome
    case Failure(e) => Exchange(Failure(e), sent.posted)
    case Success(body) => Exchange(StatsFromBody(env.decoders, body), sent.posted)
  }
}

=== FILE: codec.dfy ===
/**
 * The `omitempty` serialisation of `Params` and `Request` as a JSON tree,
 * and the reading a JSON-RPC server applies to it. A field whose value is
 * the zero value of its type (empty string, empty list, zero) is left out.
 */
module Codec {
  import opened Wrappers
  import opened Hex
  import opened Json
  import opened Protocol

  /** A value that `omitempty` drops: the zero value of the field's type. */
  predicate IsEmptyValue(v: Json) {
    v == JNull || v == JString("") || v == JNumber(0) || v == JArray([])
  }

  /** `omitempty`: of the candidate members, keep those whose value is not empty, in order. */
  function OmitEmpty(ms: seq<Member>): (r: seq<Member>)
    ensures forall k :: 0 <= k < |r| ==> !IsEmptyValue(r[k].value) && r[k] in ms
    ensures forall k :: 0 <= k < |ms| && !IsEmptyValue(ms[k].value) ==> ms[k] in r
    decreases |ms|
  {
    if |ms| == 0 then []
    else
      var front := ms[..|ms| - 1];
      var last := ms[|ms| - 1];
      var kept := OmitEmpty(front);
      assert forall k :: 0 <= k < |front| ==> front[k] == ms[k];
      if IsEmptyValue(last.value) then kept else kept + [last]
  }

  /**
   * `omitempty` works member by member: a single member is kept exactly when its
   * value is not empty, and the members kept from a concatenation are those kept
   * from each part, in the same order.
   */
  lemma {:induction false} OmitEmptyAppend(a: seq<Member>, b: seq<Member>)
    ensures OmitEmpty(a + b) == OmitEmpty(a) + OmitEmpty(b)
    ensures |b| == 1 ==> OmitEmpty(b) == if IsEmptyValue(b[0].value) then [] else b
    decreases |b|
  {
    if |b| == 0 {
      assert a + b == a;
    } else {
      var front := b[..|b| - 1];
      var last := b[|b| - 1];
      assert (a + b)[..|a + b| - 1] == a + front;
      assert (a + b)[|a + b| - 1] == last;
      OmitEmptyAppend(a, front);
      if |b| == 1 {
        assert front == [];
      }
    }
  }

  /** No two candidate keys could be matched by the same field. */
  predicate DistinctKeys(ms: seq<Member>) {
    forall i, j :: 0 <= i < |ms| && 0 <= j < |ms| && i != j ==> !KeyMatches(ms[j].key, ms[i].key)
  }

  /** A key that matches no candidate matches nothing `omitempty` keeps. */
  lemma OmitEmptyNoMatch(ms: seq<Member>, name: string)
    requires forall j :: 0 <= j < |ms| ==> !KeyMatches(ms[j].key, name)
    ensures Find(OmitEmpty(ms), name) == None
  {
    var kept := OmitEmpty(ms);
    forall k | 0 <= k < |kept| ensures !KeyMatches(kept[k].key, name) {
      assert kept[k] in ms;
    }
    FindIsLastMatch(kept, name);
  }

  /** When no other candidate shares its key, a candidate is found after `omitempty` exactly when its value is not empty. */
  lemma {:induction false} FindOmitEmpty(ms: seq<Member>, i: nat)
    requires i < |ms|
    requires forall j :: 0 <= j < |ms| && j != i ==> !KeyMatches(ms[j].key, ms[i].key)
    ensures Find(OmitEmpty(ms), ms[i].key) == if IsEmptyValue(ms[i].value) then None else Some(ms[i].value)
    decreases |ms|
  {
    var front := ms[..|ms| - 1];
    var last := ms[|ms| - 1];
    var kept := OmitEmpty(front);
    var opt := if IsEmptyValue(last.value) then [] else [last];
    assert OmitEmpty(ms) == kept + opt;
    if i == |ms| - 1 {
      assert KeyMatches(last.key, last.key);
      FindAppendOptional(kept, opt, last.key);
      OmitEmptyNoMatch(front, last.key);
    } else {
      assert ms[i] == front[i];
      FindOmitEmpty(front, i);
      FindAppendOther(kept, opt, ms[i].key);
    }
  }

  function StringItems(xs: seq<string>): (js: seq<Json>)
    ensures |js| == |xs|
    ensures forall i :: 0 <= i < |xs| ==> js[i] == JString(xs[i])
  {
    seq(|xs|, i requires 0 <= i < |xs| => JString(xs[i]))
  }

  /** Every params field as a candidate member, in declaration order. */
  function ParamsFields(p: Params): seq<Member> {
    [ Member("txs", JArray(StringItems(p.txs))),
      Member("blockNumber", JString(p.blockNumber)),
      Member("stateBlockNumber", JString(p.stateBlockNumber)),
      Member("bundleHash", JString(p.bundleHash)) ]
  }

  function ParamsMembers(p: Params): seq<Member> {
    OmitEmpty(ParamsFields(p))
  }

  function EncodeParams(p: Params): Json {
    JObject(ParamsMembers(p))
  }

  function ParamsItems(ps: seq<Params>): (js: seq<Json>)
    ensures |js| == |ps|
    ensures forall i :: 0 <= i < |ps| ==> js[i] == EncodeParams(ps[i])
  {
    seq(|ps|, i requires 0 <= i < |ps| => EncodeParams(ps[i]))
  }

  /** Every envelope field as a candidate member, in declaration order. */
  function RequestFields(r: Request): seq<Member> {
    [ Member("jsonrpc", JString(r.jsonrpc)),
      Member("id", JNumber(r.id)),
      Member("method", JString(r.methodName)),
      Member("params", JArray(ParamsItems(r.params))) ]
  }

  function RequestMembers(r: Request): seq<Member> {
    OmitEmpty(RequestFields(r))
  }

  /** The tree `json.Marshal` renders for a request. */
  function EncodeRequest(r: Request): Json {
    JObject(RequestMembers(r))
  }

  // The reading of a request tree: an absent or null member is the field's zero value.

  function DecodeStrings(items: seq<Json>): (r: Option<seq<string>>)
    ensures r.Some? ==> |r.value| == |items|
  {
    if |items| == 0 then Some([])
    else
      match items[0]
      case JString(s) =>
        var rest :- DecodeStrings(items[1..]);
        Some([s] + rest)
      case _ => None
  }

  function StringsField(ms: seq<Member>, name: string): Option<seq<string>> {
    match Find(ms, name)
    case None => Some([])
    case Some(JNull) => Some([])
    case Some(JArray(items)) => DecodeStrings(items)
    case Some(_) => None
  }

  function DecodeParams(j: Json): Option<Params> {
    match j
    case JObject(ms) =>
      var txs :- StringsField(ms, "txs");
      var blockNumber :- ReadString(ms, "blockNumber");
      var stateBlockNumber :- ReadString(ms, "stateBlockNumber");
      var bundleHash :- ReadString(ms, "bundleHash");
      Some(Params(txs, blockNumber, stateBlockNumber, bundleHash))
    case _ => None
  }

  function DecodeParamsItems(items: seq<Json>): (r: Option<seq<Params>>)
    ensures r.Some? ==> |r.value| == |items|
  {
    if |items| == 0 then Some([])
    else
      var p :- DecodeParams(items[0]);
      var rest :- DecodeParamsItems(items[1..]);
      Some([p] + rest)
  }

  function ParamsField(ms: seq<Member>): Option<seq<Params>> {
    match Find(ms, "params")
    case None => Some([])
    case Some(JNull) => Some([])
    case Some(JArray(items)) => DecodeParamsItems(items)
    case Some(_) => None
  }

  function DecodeRequest(j: Json): Option<Request> {
    match j
    case JObject(ms) =>
      var jsonrpc :- ReadString(ms, "jsonrpc");
      var id :- ReadInt(ms, "id");
      var methodName :- ReadString(ms, "method");
      var params :- ParamsField(ms);
      Some(Request(jsonrpc, id, methodName, params))
    case _ => None
  }

  lemma {:induction false} DecodeStringItems(xs: seq<string>)
    ensures DecodeStrings(StringItems(xs)) == Some(xs)
  {
    if |xs| > 0 {
      assert StringItems(xs)[1..] == StringItems(xs[1..]);
      DecodeStringItems(xs[1..]);
      assert [xs[0]] + xs[1..] == xs;
    }
  }

  /** Appending an optional member for the looked-up key. */
  lemma FindAppendOptional(ms: seq<Member>, opt: seq<Member>, name: string)
    requires |opt| <= 1
    requires forall i :: 0 <= i < |opt| ==> KeyMatches(opt[i].key, name)
    ensures Find(ms + opt, name) == if |opt| == 0 then Find(ms, name) else Some(opt[0].value)
  {
    if |opt| == 0 {
      assert ms + opt == ms;
    } else {
      FindAppendMatch(ms, opt[0].key, opt[0].value, name);
      assert opt == [Member(opt[0].key, opt[0].value)];
    }
  }

  lemma ParamsKeysDistinct(p: Params)
    ensures DistinctKeys(ParamsFields(p))
  {
  }

  lemma RequestKeysDistinct(r: Request)
    ensures DistinctKeys(RequestFields(r))
  {
    assert LowerAscii("method"[0]) != LowerAscii("params"[0]);
  }

  /**
   * Each params field is on the wire exactly when it is non-empty, carrying its
   * value, and no empty value is ever emitted.
   */
  lemma ParamsOmitEmpty(p: Params)
    ensures Find(ParamsMembers(p), "txs") == (if |p.txs| == 0 then None else Some(JArray(StringItems(p.txs))))
    ensures Find(ParamsMembers(p), "blockNumber") == (if p.blockNumber == "" then None else Some(JString(p.blockNumber)))
    ensures Find(ParamsMembers(p), "stateBlockNumber") == (if p.stateBlockNumber == "" then None else Some(JString(p.stateBlockNumber)))
    ensures Find(ParamsMembers(p), "bundleHash") == (if p.bundleHash == "" then None else Some(JString(p.bundleHash)))
    ensures forall i :: 0 <= i < |ParamsMembers(p)| ==> !IsEmptyValue(ParamsMembers(p)[i].value)
  {
    var fs := ParamsFields(p);
    var ms := ParamsMembers(p);
    assert Find(ms, "txs") == (if |p.txs| == 0 then None else Some(JArray(StringItems(p.txs)))) by {
      ParamsKeysDistinct(p);
      FindOmitEmpty(fs, 0);
      assert |p.txs| == 0 <==> StringItems(p.txs) == [];
    }
    assert Find(ms, "blockNumber") == (if p.blockNumber == "" then None else Some(JString(p.blockNumber))) by {
      ParamsKeysDistinct(p);
      FindOmitEmpty(fs, 1);
    }
    assert Find(ms, "stateBlockNumber") == (if p.stateBlockNumber == "" then None else Some(JString(p.stateBlockNumber))) by {
      ParamsKeysDistinct(p);
      FindOmitEmpty(fs, 2);
    }
    assert Find(ms, "bundleHash") == (if p.bundleHash == "" then None else Some(JString(p.bundleHash))) by {
      ParamsKeysDistinct(p);
      FindOmitEmpty(fs, 3);
    }
  }

  lemma {:induction false} DecodeParamsItemsOf(ps: seq<Params>)
    ensures DecodeParamsItems(ParamsItems(ps)) == Some(ps)
  {
    if |ps| > 0 {
      ParamsRoundTrip(ps[0]);
      assert ParamsItems(ps)[1..] == ParamsItems(ps[1..]);
      DecodeParamsItemsOf(ps[1..]);
      assert [ps[0]] + ps[1..] == ps;
    }
  }

  /** Reading an encoded params object gives back every field. */
  lemma ParamsRoundTrip(p: Params)
    ensures DecodeParams(EncodeParams(p)) == Some(p)
  {
    var ms := ParamsMembers(p);
    ParamsOmitEmpty(p);
    assert StringsField(ms, "txs") == Some(p.txs) by {
      DecodeStringItems(p.txs);
    }
    assert ReadString(ms, "blockNumber") == Some(p.blockNumber);
    assert ReadString(ms, "stateBlockNumber") == Some(p.stateBlockNumber);
    assert ReadString(ms, "bundleHash") == Some(p.bundleHash);
  }

  /** Each envelope field is on the wire exactly when it is non-zero, carrying its value. */
  lemma RequestOmitEmpty(r: Request)
    ensures Find(RequestMembers(r), "jsonrpc") == (if r.jsonrpc == "" then None else Some(JString(r.jsonrpc)))
    ensures Find(RequestMembers(r), "id") == (if r.id == 0 then None else Some(JNumber(r.id)))
    ensures Find(RequestMembers(r), "method") == (if r.methodName == "" then None else Some(JString(r.methodName)))
    ensures Find(RequestMembers(r), "params") == (if |r.params| == 0 then None else Some(JArray(ParamsItems(r.params))))
  {
    var fs := RequestFields(r);
    var ms := RequestMembers(r);
    assert Find(ms, "jsonrpc") == (if r.jsonrpc == "" then None else Some(JString(r.jsonrpc))) by {
      RequestKeysDistinct(r);
      FindOmitEmpty(fs, 0);
    }
    assert Find(ms, "id") == (if r.id == 0 then None else Some(JNumber(r.id))) by {
      RequestKeysDistinct(r);
      FindOmitEmpty(fs, 1);
    }
    assert Find(ms, "method") == (if r.methodName == "" then None else Some(JString(r.methodName))) by {
      RequestKeysDistinct(r);
      FindOmitEmpty(fs, 2);
    }
    assert Find(ms, "params") == (if |r.params| == 0 then None else Some(JArray(ParamsItems(r.params)))) by {
      RequestKeysDistinct(r);
      FindOmitEmpty(fs, 3);
      assert |r.params| == 0 <==> ParamsItems(r.params) == [];
    }
  }

  /** Reading an encoded request gives back the request. */
  lemma RequestRoundTrip(r: Request)
    ensures DecodeRequest(EncodeRequest(r)) == Some(r)
  {
    var ms := RequestMembers(r);
    RequestOmitEmpty(r);
    assert ReadString(ms, "jsonrpc") == Some(r.jsonrpc);
    assert ReadInt(ms, "id") == Some(r.id);
    assert ReadString(ms, "method") == Some(r.methodName);
    assert ParamsField(ms) == Some(r.params) by {
      DecodeParamsItemsOf(r.params);
    }
  }
}

/** What each of the three calls puts on the wire. */
module Wire {
  import opened Wrappers
  import opened Hex
  import opened Json
  import opened Protocol
  import opened Codec

  /** The one params object of a request, as encoded. */
  function WireParams(r: Request): seq<Member>
    requires |r.params| == 1
  {
    ParamsMembers(r.params[0])
  }

  /**
   * `eth_sendBundle` carries the block number always, the transactions when
   * there are any, and neither a state block nor a bundle hash.
   */
  lemma SendBundleOnWire(txs: seq<string>, blockNumber: uint64)
    ensures Find(WireParams(SendBundleRequest(txs, blockNumber)), "blockNumber") == Some(JString(EncodeUint64(blockNumber)))
    ensures Find(WireParams(SendBundleRequest(txs, blockNumber)), "txs").Some? <==> |txs| > 0
    ensures Find(WireParams(SendBundleRequest(txs, blockNumber)), "stateBlockNumber").None?
    ensures Find(WireParams(SendBundleRequest(txs, blockNumber)), "bundleHash").None?
  {
    ParamsOmitEmpty(SendBundleRequest(txs, blockNumber).params[0]);
  }

  /** `eth_callBundle` always carries the placeholder block and the "latest" state block. */
  lemma CallBundleOnWire(txs: seq<string>)
    ensures Find(WireParams(CallBundleRequest(txs)), "blockNumber") == Some(JString(EncodeUint64(CallBlockDummy)))
    ensures Find(WireParams(CallBundleRequest(txs)), "stateBlockNumber") == Some(JString(LatestState))
    ensures Find(WireParams(CallBundleRequest(txs)), "txs").Some? <==> |txs| > 0
    ensures Find(WireParams(CallBundleRequest(txs)), "bundleHash").None?
  {
    ParamsOmitEmpty(CallBundleRequest(txs).params[0]);
  }

  /** `flashbots_getBundleStats` carries the block number always and the hash when it is non-empty. */
  lemma BundleStatsOnWire(bundleHash: string, blockNumber: uint64)
    ensures Find(WireParams(BundleStatsRequest(bundleHash, blockNumber)), "blockNumber") == Some(JString(EncodeUint64(blockNumber)))
    ensures Find(WireParams(BundleStatsRequest(bundleHash, blockNumber)), "bundleHash").Some? <==> bundleHash != ""
    ensures Find(WireParams(BundleStatsRequest(bundleHash, blockNumber)), "txs").None?
    ensures Find(WireParams(BundleStatsRequest(bundleHash, blockNumber)), "stateBlockNumber").None?
  {
    ParamsOmitEmpty(BundleStatsRequest(bundleHash, blockNumber).params[0]);
  }

  /** Every request envelope is on the wire in full: version, id, method and one params object. */
  lemma EnvelopeOnWire(r: Request, methodName: string)
    requires IsEnvelope(r, methodName) && methodName != ""
    ensures Find(RequestMembers(r), "jsonrpc") == Some(JString("2.0"))
    ensures Find(RequestMembers(r), "id") == Some(JNumber(1))
    ensures Find(RequestMembers(r), "method") == Some(JString(methodName))
    ensures Find(RequestMembers(r), "params") == Some(JArray([EncodeParams(r.params[0])]))
  {
    RequestOmitEmpty(r);
    assert ParamsItems(r.params) == [EncodeParams(r.params[0])];
  }
}

=== FILE: hex.dfy ===
/**
 * Hex renderings from go-ethereum's hexutil package, as the client uses them:
 * `EncodeUint64` for block numbers and `Encode` for byte strings (hashes,
 * signatures). Each encoder is paired with the decoder that reads it back.
 */
module Hex {
  import opened Wrappers

  type byte = x: int | 0 <= x < 0x100
  type uint64 = x: int | 0 <= x < 0x1_0000_0000_0000_0000
  type Bytes = seq<byte>

  const Uint64Bound: int := 0x1_0000_0000_0000_0000

  /** Go's `int`, 64 bits wide on the platforms the client targets. */
  const Int64Min: int := -0x8000_0000_0000_0000
  const Int64Max: int := 0x7fff_ffff_ffff_ffff
  type int64 = x: int | Int64Min <= x <= Int64Max

  predicate IsLowerHexDigit(c: char) {
    '0' <= c <= '9' || 'a' <= c <= 'f'
  }

  predicate IsHexDigit(c: char) {
    IsLowerHexDigit(c) || 'A' <= c <= 'F'
  }

  predicate IsLowerHex(s: string) {
    forall i :: 0 <= i < |s| ==> IsLowerHexDigit(s[i])
  }

  predicate IsHex(s: string) {
    forall i :: 0 <= i < |s| ==> IsHexDigit(s[i])
  }

  /** Every character is 7-bit, so the string's UTF-8 bytes are its characters. */
  predicate IsAscii(s: string) {
    forall i :: 0 <= i < |s| ==> s[i] as int < 0x80
  }

  function LowerAscii(c: char): char {
    if 'A' <= c <= 'Z' then (c as int + 32) as char else c
  }

  function UpperAscii(c: char): char {
    if 'a' <= c <= 'z' then (c as int - 32) as char else c
  }

  /** The lower-case digit for a nibble. */
  function DigitChar(d: nat): (c: char)
    requires d < 16
    ensures IsLowerHexDigit(c)
    ensures DigitValue(c) == d
  {
    if d < 10 then ('0' as int + d) as char else ('a' as int + d - 10) as char
  }

  /** The nibble a digit of either case stands for. */
  function DigitValue(c: char): (d: nat)
    requires IsHexDigit(c)
    ensures d < 16
  {
    if '0' <= c <= '9' then c as int - '0' as int
    else if 'a' <= c <= 'f' then c as int - 'a' as int + 10
    else c as int - 'A' as int + 10
  }

  lemma DigitValueIgnoresCase(c: char)
    requires IsHexDigit(c)
    ensures IsHexDigit(LowerAscii(c)) && DigitValue(LowerAscii(c)) == DigitValue(c)
  {
  }

  lemma DigitCharOfValue(c: char)
    requires IsLowerHexDigit(c)
    ensures DigitChar(DigitValue(c)) == c
  {
  }

  /** No superfluous leading zero: the single digit "0" or a non-zero first digit. */
  predicate Minimal(s: string) {
    |s| == 1 || (|s| > 1 && s[0] != '0')
  }

  /** The digits of `strconv.FormatUint(n, 16)`: minimal, lower-case. */
  function QuantityDigits(n: nat): (s: string)
    ensures IsLowerHex(s)
    ensures Minimal(s)
    ensures |s| == 1 <==> n < 16
    decreases n
  {
    if n < 16 then [DigitChar(n)]
    else
      var high := QuantityDigits(n / 16);
      assert |high| == 1 ==> high[0] == DigitChar(n / 16);
      high + [DigitChar(n % 16)]
  }

  /** The number a digit string denotes, most significant digit first. */
  function Value(s: string): nat
    requires IsHex(s)
    decreases |s|
  {
    if |s| == 0 then 0 else Value(s[..|s| - 1]) * 16 + DigitValue(s[|s| - 1])
  }

  lemma {:induction false} ValueOfQuantityDigits(n: nat)
    ensures Value(QuantityDigits(n)) == n
    decreases n
  {
    if n >= 16 {
      var high := QuantityDigits(n / 16);
      var s := high + [DigitChar(n % 16)];
      assert s[..|s| - 1] == high;
      ValueOfQuantityDigits(n / 16);
    }
  }

  lemma {:induction false} ValuePositive(s: string)
    requires IsHex(s) && |s| > 0 && s[0] != '0'
    ensures Value(s) > 0
    decreases |s|
  {
    if |s| > 1 {
      ValuePositive(s[..|s| - 1]);
    }
  }

  /** A minimal lower-case digit string is the rendering of its own value. */
  lemma {:induction false} QuantityDigitsOfValue(s: string)
    requires IsLowerHex(s) && Minimal(s)
    ensures QuantityDigits(Value(s)) == s
    decreases |s|
  {
    var last := s[|s| - 1];
    DigitCharOfValue(last);
    if |s| > 1 {
      var high := s[..|s| - 1];
      assert Minimal(high);
      ValuePositive(high);
      QuantityDigitsOfValue(high);
      var v := Value(s);
      assert v / 16 == Value(high) && v % 16 == DigitValue(last);
      assert s == high + [last];
    }
  }

  /** One more low digit: the rendering of `n` is the rendering of `n / 16` followed by the digit of `n % 16`. */
  lemma QuantityDigitsStep(n: nat, high: string, low: char)
    requires n >= 16 && QuantityDigits(n / 16) == high && DigitChar(n % 16) == low
    ensures QuantityDigits(n) == high + [low]
  {
  }

  /** hexutil.EncodeUint64: "0x" followed by the minimal lower-case digits. */
  function EncodeUint64(n: uint64): (s: string)
    ensures |s| >= 3 && s[..2] == "0x"
    ensures IsLowerHex(s[2..]) && Minimal(s[2..])
    ensures Value(s[2..]) == n
  {
    ValueOfQuantityDigits(n);
    var s := "0x" + QuantityDigits(n);
    assert s[2..] == QuantityDigits(n);
    s
  }

  /**
   * hexutil.DecodeUint64: a "0x"/"0X" prefix, at least one digit, no leading
   * zero, digits of either case, a value that fits in 64 bits.
   */
  function DecodeUint64(s: string): (r: Option<uint64>)
    ensures r.Some? ==> |s| >= 3 && IsHex(s[2..]) && Minimal(s[2..]) && r.value == Value(s[2..])
  {
    if |s| < 3 || s[0] != '0' || (s[1] != 'x' && s[1] != 'X') then None
    else
      var digits := s[2..];
      if !IsHex(digits) || !Minimal(digits) then None
      else
        var v := Value(digits);
        if v < Uint64Bound then Some(v) else None
  }

  lemma EncodeUint64RoundTrip(n: uint64)
    ensures DecodeUint64(EncodeUint64(n)) == Some(n)
  {
  }

  /** Every lower-case quantity the decoder accepts is the encoder's output for its value. */
  lemma EncodeUint64Canonical(s: string)
    requires DecodeUint64(s).Some? && s[1] == 'x' && IsLowerHex(s[2..])
    ensures EncodeUint64(DecodeUint64(s).value) == s
  {
    QuantityDigitsOfValue(s[2..]);
    assert s == s[..2] + s[2..];
  }

  lemma EncodeUint64Injective(m: uint64, n: uint64)
    requires EncodeUint64(m) == EncodeUint64(n)
    ensures m == n
  {
    EncodeUint64RoundTrip(m);
    EncodeUint64RoundTrip(n);
  }

  /** hex.EncodeToString: two lower-case digits per byte, high nibble first. */
  function HexOfBytes(b: Bytes): (s: string)
    ensures |s| == 2 * |b|
    ensures IsLowerHex(s)
  {
    if |b| == 0 then "" else [DigitChar(b[0] / 16), DigitChar(b[0] % 16)] + HexOfBytes(b[1..])
  }

  /** The bytes an even-length digit string of either case stands for. */
  function BytesOfHex(s: string): (b: Bytes)
    requires IsHex(s) && |s| % 2 == 0
    ensures |b| == |s| / 2
    decreases |s|
  {
    if |s| == 0 then [] else [DigitValue(s[0]) * 16 + DigitValue(s[1])] + BytesOfHex(s[2..])
  }

  lemma {:induction false} BytesOfHexOfBytes(b: Bytes)
    ensures BytesOfHex(HexOfBytes(b)) == b
  {
    if |b| > 0 {
      var s := HexOfBytes(b);
      var hi, lo := b[0] / 16, b[0] % 16;
      assert s[0] == DigitChar(hi) && s[1] == DigitChar(lo);
      assert s[2..] == HexOfBytes(b[1..]);
      assert hi * 16 + lo == b[0];
      BytesOfHexOfBytes(b[1..]);
    }
  }

  /** Decoding ignores the case of the digits. */
  lemma {:induction false} BytesOfHexIgnoresCase(s: string, t: string)
    requires IsHex(s) && IsHex(t) && |s| == |t| && |s| % 2 == 0
    requires forall i :: 0 <= i < |s| ==> LowerAscii(s[i]) == LowerAscii(t[i])
    ensures BytesOfHex(s) == BytesOfHex(t)
    decreases |s|
  {
    if |s| > 0 {
      DigitValueIgnoresCase(s[0]);
      DigitValueIgnoresCase(t[0]);
      DigitValueIgnoresCase(s[1]);
      DigitValueIgnoresCase(t[1]);
      BytesOfHexIgnoresCase(s[2..], t[2..]);
    }
  }

  lemma LowerHexIsAscii(s: string)
    requires IsLowerHex(s)
    ensures IsAscii(s) && IsAscii("0x" + s)
  {
    assert forall i :: 0 <= i < |s| ==> IsLowerHexDigit(s[i]);
  }

  /** hexutil.Encode: "0x" followed by two lower-case digits per byte. */
  function EncodeBytes(b: Bytes): (s: string)
    ensures |s| == 2 + 2 * |b| && s[..2] == "0x"
    ensures IsLowerHex(s[2..]) && IsAscii(s)
    ensures BytesOfHex(s[2..]) == b
  {
    BytesOfHexOfBytes(b);
    var digits := HexOfBytes(b);
    LowerHexIsAscii(digits);
    var s := "0x" + digits;
    assert s[2..] == digits;
    s
  }

  /** Go's `[]byte(s)` for a string of 7-bit characters. */
  function AsciiBytes(s: string): (b: Bytes)
    requires IsAscii(s)
    ensures |b| == |s|
    ensures forall i :: 0 <= i < |s| ==> b[i] == s[i] as int
  {
    seq(|s|, i requires 0 <= i < |s| => s[i] as int)
  }
}

=== FILE: json.dfy ===
/**
 * The JSON document tree that encoding/json produces from, and reads into,
 * the client's structs. Text rendering and parsing are not part of this model;
 * only the tree and Go's rule for matching object keys to struct fields are.
 */
module Json {
  import opened Wrappers
  import opened Hex

  datatype Json =
    | JNull
    | JBool(b: bool)
    | JNumber(n: int)
    | JString(s: string)
    | JArray(items: seq<Json>)
    | JObject(members: seq<Member>)

  datatype Member = Member(key: string, value: Json)

  /**
   * encoding/json matches an object key to a struct field by exact name or,
   * failing that, by case-insensitive name; either way the key matches exactly
   * when the two names agree up to case.
   */
  predicate KeyMatches(key: string, name: string) {
    |key| == |name| && forall i :: 0 <= i < |key| ==> LowerAscii(key[i]) == LowerAscii(name[i])
  }

  /**
   * The value a struct field receives when an object is decoded into it: the
   * last member whose key matches the field, as each later one overwrites it.
   */
  function Find(ms: seq<Member>, name: string): Option<Json>
    decreases |ms|
  {
    if |ms| == 0 then None
    else if KeyMatches(ms[|ms| - 1].key, name) then Some(ms[|ms| - 1].value)
    else Find(ms[..|ms| - 1], name)
  }

  /** `Find` yields the value of the last matching member, and nothing when no member matches. */
  lemma {:induction false} FindIsLastMatch(ms: seq<Member>, name: string)
    ensures Find(ms, name).None? <==> forall i :: 0 <= i < |ms| ==> !KeyMatches(ms[i].key, name)
    ensures Find(ms, name).Some? ==>
              exists i :: 0 <= i < |ms| && KeyMatches(ms[i].key, name) && ms[i].value == Find(ms, name).value
                          && forall k :: i < k < |ms| ==> !KeyMatches(ms[k].key, name)
    decreases |ms|
  {
    if |ms| > 0 && !KeyMatches(ms[|ms| - 1].key, name) {
      var front := ms[..|ms| - 1];
      FindIsLastMatch(front, name);
      assert forall i :: 0 <= i < |front| ==> front[i] == ms[i];
      if Find(ms, name).Some? {
        var i :| 0 <= i < |front| && KeyMatches(front[i].key, name) && front[i].value == Find(front, name).value
                 && forall k :: i < k < |front| ==> !KeyMatches(front[k].key, name);
        assert ms[i] == front[i];
      }
    }
  }

  lemma FindAppendMatch(ms: seq<Member>, key: string, v: Json, name: string)
    requires KeyMatches(key, name)
    ensures Find(ms + [Member(key, v)], name) == Some(v)
  {
  }

  lemma {:induction false} FindAppendOther(ms: seq<Member>, extra: seq<Member>, name: string)
    requires forall i :: 0 <= i < |extra| ==> !KeyMatches(extra[i].key, name)
    ensures Find(ms + extra, name) == Find(ms, name)
    decreases |extra|
  {
    if |extra| > 0 {
      var front := extra[..|extra| - 1];
      var all := ms + extra;
      assert all[|all| - 1] == extra[|extra| - 1];
      assert !KeyMatches(all[|all| - 1].key, name);
      assert all[..|all| - 1] == ms + front;
      assert Find(all, name) == Find(ms + front, name);
      FindAppendOther(ms, front, name);
    } else {
      assert ms + extra == ms;
    }
  }

  /** Members before the matching ones that match nothing leave the found value unchanged. */
  lemma {:induction false} FindPrependOther(pre: seq<Member>, ms: seq<Member>, name: string)
    requires forall i :: 0 <= i < |pre| ==> !KeyMatches(pre[i].key, name)
    ensures Find(pre + ms, name) == Find(ms, name)
    decreases |ms|
  {
    if |ms| == 0 {
      assert pre + ms == pre;
      FindIsLastMatch(pre, name);
    } else {
      var all := pre + ms;
      assert all[|all| - 1] == ms[|ms| - 1];
      if !KeyMatches(ms[|ms| - 1].key, name) {
        assert all[..|all| - 1] == pre + ms[..|ms| - 1];
        FindPrependOther(pre, ms[..|ms| - 1], name);
      }
    }
  }

  /** A member whose key does not match can be dropped from anywhere without changing the found value. */
  lemma {:induction false} FindDropOther(a: seq<Member>, m: Member, b: seq<Member>, name: string)
    requires !KeyMatches(m.key, name)
    ensures Find(a + [m] + b, name) == Find(a + b, name)
    decreases |b|
  {
    if |b| == 0 {
      assert a + [m] + b == a + [m];
      assert (a + [m])[..|a|] == a;
      assert a + b == a;
    } else {
      var front := b[..|b| - 1];
      var with := a + [m] + b;
      var without := a + b;
      assert with[|with| - 1] == b[|b| - 1] && without[|without| - 1] == b[|b| - 1];
      if !KeyMatches(b[|b| - 1].key, name) {
        assert with[..|with| - 1] == a + [m] + front;
        assert without[..|without| - 1] == a + front;
        FindDropOther(a, m, front, name);
      }
    }
  }

  /**
   * A Go `int` field read from the members of an object: absent or null keeps
   * 0, an integer that fits is taken, anything else is a type error.
   */
  function ReadInt(ms: seq<Member>, name: string): (r: Option<int>)
    ensures r.Some? ==> Int64Min <= r.value <= Int64Max
    ensures Find(ms, name).None? || Find(ms, name) == Some(JNull) ==> r == Some(0)
    ensures var v := Find(ms, name);
            v.Some? && v.value.JNumber? ==> r == (if Int64Min <= v.value.n <= Int64Max then Some(v.value.n) else None)
    ensures var v := Find(ms, name);
            v.Some? && !v.value.JNull? && !v.value.JNumber? ==> r.None?
  {
    match Find(ms, name)
    case None => Some(0)
    case Some(JNull) => Some(0)
    case Some(JNumber(n)) => if Int64Min <= n <= Int64Max then Some(n) else None
    case Some(_) => None
  }

  /** A Go `string` field: absent or null keeps "", a string is taken, anything else is a type error. */
  function ReadString(ms: seq<Member>, name: string): (r: Option<string>)
    ensures Find(ms, name).None? || Find(ms, name) == Some(JNull) ==> r == Some("")
    ensures var v := Find(ms, name); v.Some? && v.value.JString? ==> r == Some(v.value.s)
    ensures var v := Find(ms, name);
            v.Some? && !v.value.JNull? && !v.value.JString? ==> r.None?
  {
    match Find(ms, name)
    case None => Some("")
    case Some(JNull) => Some("")
    case Some(JString(s)) => Some(s)
    case Some(_) => None
  }
}

=== FILE: messages.dfy ===
/**
 * The relay's replies: the `Response`, `Result`, `TxResult`, `Error` and
 * `ResultBundleStats` structs of flashbot.go, and the part of decoding that the
 * error gates depend on — which JSON member each struct's error is read from.
 */
module Messages {
  import opened Wrappers
  import opened Hex
  import opened Json

  /** A JSON-RPC error; code 0 stands for "no error". */
  datatype RelayError = RelayError(code: int, message: string)

  datatype Metadata = Metadata(coinbaseDiff: string, ethSentToCoinbase: string, gasFees: string)

  /** The relay's report on one transaction of the bundle. */
  datatype TxResult = TxResult(
    metadata: Metadata,
    fromAddress: string,
    gasPrice: string,
    txHash: string,
    error: string,
    revert: string,
    gasUsed: uint64)

  datatype BundleResult = BundleResult(
    bundleGasPrice: string,
    bundleHash: string,
    metadata: Metadata,
    results: seq<TxResult>)

  /** The reply to `eth_sendBundle` and `eth_callBundle`. */
  datatype Response = Response(error: RelayError, result: BundleResult)

  /** The reply's stats; the three timestamps are not part of this model. */
  datatype BundleStats = BundleStats(isSimulated: bool, isHighPriority: bool)

  /** The reply to `flashbots_getBundleStats`. */
  datatype ResultBundleStats = ResultBundleStats(error: RelayError, result: BundleStats)

  const NoError: RelayError := RelayError(0, "")
  const EmptyMetadata: Metadata := Metadata("", "", "")
  const EmptyResult: BundleResult := BundleResult("", "", EmptyMetadata, [])
  const EmptyStats: BundleStats := BundleStats(false, false)

  /**
   * The decoding steps outside this model: parsing the reply text into a tree,
   * and filling a `Result` or `BundleStats` from the tree of its member.
   */
  datatype Decoders = Decoders(
    parse: Bytes -> Option<Json>,
    result: Json -> Option<BundleResult>,
    stats: Json -> Option<BundleStats>)

  /** The `Code` and `Message` fields of an `Error`, read from the members of one object. */
  function ErrorFields(ms: seq<Member>): Option<RelayError> {
    var code :- ReadInt(ms, "code");
    var message :- ReadString(ms, "message");
    Some(RelayError(code, message))
  }

  /** An `Error` struct field: absent or null keeps the zero error, an object is read, anything else is a type error. */
  function ErrorValue(v: Option<Json>): Option<RelayError> {
    match v
    case None => Some(NoError)
    case Some(JNull) => Some(NoError)
    case Some(JObject(ms)) => ErrorFields(ms)
    case Some(_) => None
  }

  function ResultValue(v: Option<Json>, dec: Decoders): Option<BundleResult> {
    match v
    case None => Some(EmptyResult)
    case Some(JNull) => Some(EmptyResult)
    case Some(x) => dec.result(x)
  }

  function StatsValue(v: Option<Json>, dec: Decoders): Option<BundleStats> {
    match v
    case None => Some(EmptyStats)
    case Some(JNull) => Some(EmptyStats)
    case Some(x) => dec.stats(x)
  }

  /**
   * `e` holds what the members say about an `Error`'s fields: a number that
   * fits under "code" is the code, a string under "message" is the message,
   * and an absent or null member leaves the field at its zero value.
   */
  predicate FieldsRead(ms: seq<Member>, e: RelayError) {
    var c := Find(ms, "code");
    var m := Find(ms, "message");
    && (c.Some? && c.value.JNumber? ==> e.code == c.value.n)
    && (c.None? || c == Some(JNull) ==> e.code == 0)
    && (m.Some? && m.value.JString? ==> e.message == m.value.s)
    && (m.None? || m == Some(JNull) ==> e.message == "")
  }

  /** `e` holds what the "error" member says: its fields when it is an object, the zero error when it is absent or null. */
  predicate TaggedErrorRead(ms: seq<Member>, e: RelayError) {
    var v := Find(ms, "error");
    && (v.Some? && v.value.JObject? ==> FieldsRead(v.value.members, e))
    && (v.None? || v == Some(JNull) ==> e == NoError)
  }

  /**
   * `json.Unmarshal` into a `Response`: both embedded structs carry a tag, so
   * the error is the "error" member and the result the "result" member.
   */
  function DecodeResponse(j: Json, dec: Decoders): (r: Option<Response>)
    ensures j.JNull? ==> r == Some(Response(NoError, EmptyResult))
    ensures !j.JNull? && !j.JObject? ==> r.None?
    ensures r.Some? ==> Int64Min <= r.value.error.code <= Int64Max
    ensures j.JObject? && r.Some? && r.value.error.code != 0 ==>
              var e := Find(j.members, "error");
              e.Some? && e.value.JObject? && Find(e.value.members, "code") == Some(JNumber(r.value.error.code))
    ensures j.JObject? && Find(j.members, "error").None? && Find(j.members, "result").None? ==>
              r == Some(Response(NoError, EmptyResult))
    ensures j.JObject? ==>
              (r.Some? <==> ErrorValue(Find(j.members, "error")).Some? && ResultValue(Find(j.members, "result"), dec).Some?)
    ensures j.JObject? && r.Some? ==> TaggedErrorRead(j.members, r.value.error)
    ensures j.JObject? && r.Some? ==>
              var v := Find(j.members, "result");
              (v.None? || v == Some(JNull) ==> r.value.result == EmptyResult)
              && (v.Some? && v.value != JNull ==> dec.result(v.value) == Some(r.value.result))
  {
    match j
    case JNull => Some(Response(NoError, EmptyResult))
    case JObject(ms) =>
      var e :- ErrorValue(Find(ms, "error"));
      var r :- ResultValue(Find(ms, "result"), dec);
      Some(Response(e, r))
    case _ => None
  }

  /**
   * `json.Unmarshal` into a `ResultBundleStats` as declared: its embedded
   * `Error` has no tag, so `Code` and `Message` are promoted and read from
   * top-level "code" and "message" members; an "error" member matches no field.
   */
  function DecodeStatsAsWritten(j: Json, dec: Decoders): (r: Option<ResultBundleStats>)
    ensures j.JNull? ==> r == Some(ResultBundleStats(NoError, EmptyStats))
    ensures !j.JNull? && !j.JObject? ==> r.None?
    ensures r.Some? ==> Int64Min <= r.value.error.code <= Int64Max
    ensures j.JObject? && r.Some? && r.value.error.code != 0 ==>
              Find(j.members, "code") == Some(JNumber(r.value.error.code))
    ensures j.JObject? && Find(j.members, "code").None? && Find(j.members, "message").None?
            && Find(j.members, "result").None? ==>
              r == Some(ResultBundleStats(NoError, EmptyStats))
    ensures j.JObject? ==>
              (r.Some? <==> ErrorFields(j.members).Some? && StatsValue(Find(j.members, "result"), dec).Some?)
    ensures j.JObject? && r.Some? ==> FieldsRead(j.members, r.value.error)
    ensures j.JObject? && r.Some? ==>
              var v := Find(j.members, "result");
              (v.None? || v == Some(JNull) ==> r.value.result == EmptyStats)
              && (v.Some? && v.value != JNull ==> dec.stats(v.value) == Some(r.value.result))
  {
    match j
    case JNull => Some(ResultBundleStats(NoError, EmptyStats))
    case JObject(ms) =>
      var e :- ErrorFields(ms);
      var r :- StatsValue(Find(ms, "result"), dec);
      Some(ResultBundleStats(e, r))
    case _ => None
  }

  /** The stats reply read the way `Response` is read: the error is the "error" member. */
  function DecodeStats(j: Json, dec: Decoders): (r: Option<ResultBundleStats>)
    ensures j.JNull? ==> r == Some(ResultBundleStats(NoError, EmptyStats))
    ensures !j.JNull? && !j.JObject? ==> r.None?
    ensures r.Some? ==> Int64Min <= r.value.error.code <= Int64Max
    ensures j.JObject? && r.Some? && r.value.error.code != 0 ==>
              var e := Find(j.members, "error");
              e.Some? && e.value.JObject? && Find(e.value.members, "code") == Some(JNumber(r.value.error.code))
    ensures j.JObject? && r.Some? ==> TaggedErrorRead(j.members, r.value.error)
    ensures j.JObject? ==>
              (r.Some? <==> ErrorValue(Find(j.members, "error")).Some? && StatsValue(Find(j.members, "result"), dec).Some?)
    ensures j.JObject? && r.Some? ==>
              var v := Find(j.members, "result");
              (v.None? || v == Some(JNull) ==> r.value.result == EmptyStats)
              && (v.Some? && v.value != JNull ==> dec.stats(v.value) == Some(r.value.result))
  {
    match j
    case JNull => Some(ResultBundleStats(NoError, EmptyStats))
    case JObject(ms) =>
      var e :- ErrorValue(Find(ms, "error"));
      var r :- StatsValue(Find(ms, "result"), dec);
      Some(ResultBundleStats(e, r))
    case _ => None
  }

  /**
   * A `Response` is read from its "error" and "result" members only: members
   * under any other key, before or after them, never change it.
   */
  lemma DecodeResponseReadsTaggedMembers(pre: seq<Member>, ms: seq<Member>, extra: seq<Member>, dec: Decoders)
    requires forall i :: 0 <= i < |pre| ==> !KeyMatches(pre[i].key, "error") && !KeyMatches(pre[i].key, "result")
    requires forall i :: 0 <= i < |extra| ==> !KeyMatches(extra[i].key, "error") && !KeyMatches(extra[i].key, "result")
    ensures DecodeResponse(JObject(pre + ms + extra), dec) == DecodeResponse(JObject(ms), dec)
  {
    FindAppendOther(pre + ms, extra, "error");
    FindAppendOther(pre + ms, extra, "result");
    FindPrependOther(pre, ms, "error");
    FindPrependOther(pre, ms, "result");
  }

  /**
   * A `ResultBundleStats` as declared is read from "code", "message" and
   * "result" only: members under any other key, before or after them, never change it.
   */
  lemma DecodeStatsAsWrittenReadsPromotedMembers(pre: seq<Member>, ms: seq<Member>, extra: seq<Member>, dec: Decoders)
    requires forall i :: 0 <= i < |pre| ==>
               !KeyMatches(pre[i].key, "code") && !KeyMatches(pre[i].key, "message") && !KeyMatches(pre[i].key, "result")
    requires forall i :: 0 <= i < |extra| ==>
               !KeyMatches(extra[i].key, "code") && !KeyMatches(extra[i].key, "message") && !KeyMatches(extra[i].key, "result")
    ensures DecodeStatsAsWritten(JObject(pre + ms + extra), dec) == DecodeStatsAsWritten(JObject(ms), dec)
  {
    FindAppendOther(pre + ms, extra, "code");
    FindAppendOther(pre + ms, extra, "message");
    FindAppendOther(pre + ms, extra, "result");
    FindPrependOther(pre, ms, "code");
    FindPrependOther(pre, ms, "message");
    FindPrependOther(pre, ms, "result");
  }

  /** Wherever an "error" member sits and whatever it holds, the stats struct as declared reads past it. */
  lemma StatsErrorMemberIgnored(pre: seq<Member>, v: Json, post: seq<Member>, dec: Decoders)
    ensures DecodeStatsAsWritten(JObject(pre + [Member("error", v)] + post), dec) == DecodeStatsAsWritten(JObject(pre + post), dec)
  {
    var m := Member("error", v);
    assert !KeyMatches(m.key, "code") && !KeyMatches(m.key, "message") && !KeyMatches(m.key, "result");
    FindDropOther(pre, m, post, "code");
    FindDropOther(pre, m, post, "message");
    FindDropOther(pre, m, post, "result");
  }

  /** The JSON-RPC 2.0 error reply a relay sends: an "error" object with "code" and "message". */
  function ErrorReply(e: RelayError): Json {
    JObject([Member("error", JObject([Member("code", JNumber(e.code)), Member("message", JString(e.message))]))])
  }

  /** The relay's full error reply: version and id first, then the "error" object. */
  function EnvelopedErrorReply(e: RelayError): Json {
    JObject([Member("jsonrpc", JString("2.0")), Member("id", JNumber(1))] + ErrorReply(e).members)
  }

  /**
   * With the envelope members in front, the error reply still reaches `Response`
   * with the relay's error, and still reaches the declared stats struct as no error.
   */
  lemma EnvelopedErrorReplyDecoded(e: RelayError, dec: Decoders)
    requires Int64Min <= e.code <= Int64Max
    ensures DecodeResponse(EnvelopedErrorReply(e), dec) == Some(Response(e, EmptyResult))
    ensures DecodeStatsAsWritten(EnvelopedErrorReply(e), dec) == Some(ResultBundleStats(NoError, EmptyStats))
  {
    var pre := [Member("jsonrpc", JString("2.0")), Member("id", JNumber(1))];
    var ms := ErrorReply(e).members;
    assert pre + ms + [] == pre + ms;
    assert LowerAscii("jsonrpc"[0]) != LowerAscii("message"[0]);
    assert !KeyMatches("jsonrpc", "error") && !KeyMatches("jsonrpc", "result") && !KeyMatches("jsonrpc", "code")
           && !KeyMatches("jsonrpc", "message");
    assert !KeyMatches("id", "error") && !KeyMatches("id", "result") && !KeyMatches("id", "code") && !KeyMatches("id", "message");
    DecodeResponseReadsTaggedMembers(pre, ms, [], dec);
    DecodeStatsAsWrittenReadsPromotedMembers(pre, ms, [], dec);
    ErrorReplyDecoded(e, dec);
    ErrorReplyLostAsWritten(e, dec);
  }

  /** A success reply: a "result" member only. */
  function ResultReply(result: Json): Json {
    JObject([Member("result", result)])
  }

  lemma ErrorObjectRead(e: RelayError)
    requires Int64Min <= e.code <= Int64Max
    ensures ErrorValue(Some(JObject([Member("code", JNumber(e.code)), Member("message", JString(e.message))]))) == Some(e)
  {
    var ms := [Member("code", JNumber(e.code)), Member("message", JString(e.message))];
    assert !KeyMatches("message", "code");
    assert !KeyMatches("code", "message");
    assert KeyMatches("code", "code") && KeyMatches("message", "message");
    assert ms[..1] == [Member("code", JNumber(e.code))];
    assert Find(ms, "code") == Some(JNumber(e.code));
    assert Find(ms, "message") == Some(JString(e.message));
  }

  /** A relay error reply decodes into a `Response` carrying exactly that error. */
  lemma ErrorReplyDecoded(e: RelayError, dec: Decoders)
    requires Int64Min <= e.code <= Int64Max
    ensures DecodeResponse(ErrorReply(e), dec) == Some(Response(e, EmptyResult))
    ensures DecodeStats(ErrorReply(e), dec) == Some(ResultBundleStats(e, EmptyStats))
  {
    ErrorObjectRead(e);
    var inner := JObject([Member("code", JNumber(e.code)), Member("message", JString(e.message))]);
    var ms := [Member("error", inner)];
    assert ErrorReply(e) == JObject(ms);
    assert KeyMatches("error", "error");
    assert Find(ms, "error") == Some(inner);
    assert !KeyMatches("error", "result");
    assert Find(ms, "result") == None;
  }

  /** Read as declared, the stats struct drops a relay error reply's error entirely. */
  lemma ErrorReplyLostAsWritten(e: RelayError, dec: Decoders)
    ensures DecodeStatsAsWritten(ErrorReply(e), dec) == Some(ResultBundleStats(NoError, EmptyStats))
  {
    var inner := JObject([Member("code", JNumber(e.code)), Member("message", JString(e.message))]);
    var ms := [Member("error", inner)];
    assert ErrorReply(e) == JObject(ms);
    assert !KeyMatches("error", "code") && Find(ms, "code") == None;
    assert !KeyMatches("error", "message") && Find(ms, "message") == None;
    assert !KeyMatches("error", "result") && Find(ms, "result") == None;
  }

  /** A success reply decodes into its result with the zero error. */
  lemma ResultReplyDecoded(result: Json, dec: Decoders)
    requires result != JNull
    ensures DecodeResponse(ResultReply(result), dec) ==
              (if dec.result(result).Some? then Some(Response(NoError, dec.result(result).value)) else None)
  {
    var ms := [Member("result", result)];
    assert ResultReply(result) == JObject(ms);
    assert !KeyMatches("result", "error") && Find(ms, "error") == None;
    assert KeyMatches("result", "result") && Find(ms, "result") == Some(result);
    assert ErrorValue(None) == Some(NoError);
    assert ResultValue(Some(result), dec) == dec.result(result);
  }
}

/** The ways a call can fail, one per error return of flashbot.go. */
module Failures {
  import opened Wrappers
  import opened Hex
  import opened Messages

  datatype Error =
    | UnsupportedNetwork(netId: int)
    | InvalidRelayUrl(url: string)
    | KeyNotSet
    | SigningFailed
    | TransportFailed
    | ReadFailed
    | BadStatus(status: int, body: Bytes, methodName: string)
    | CloseFailed
    | MalformedResponse
    | RelayRejected(relay: RelayError, blockNumber: uint64, firstTx: Option<TxResult>)
    | StatsRejected(relay: RelayError)
}

=== FILE: protocol.dfy ===
/**
 * The JSON-RPC request model of flashbot.go: the `Params` and `Request`
 * structs, the three per-method templates, and the requests that
 * `SendBundle`, `CallBundle` and `GetBundleStats` build from them.
 */
module Protocol {
  import opened Wrappers
  import opened Hex

  /** One params object; each method fills only the fields it uses. */
  datatype Params = Params(txs: seq<string>, blockNumber: string, stateBlockNumber: string, bundleHash: string)

  /** A JSON-RPC request envelope. */
  datatype Request = Request(jsonrpc: string, id: int64, methodName: string, params: seq<Params>)

  const EmptyParams: Params := Params([], "", "", "")

  const SendMethod: string := "eth_sendBundle"
  const CallMethod: string := "eth_callBundle"
  const StatsMethod: string := "flashbots_getBundleStats"

  /** The state block a simulation runs on top of. */
  const LatestState: string := "latest"

  /** The placeholder target block of a simulation. */
  const CallBlockDummy: uint64 := 100000000000000

  const RequestSend: Request := Request("2.0", 1, SendMethod, [EmptyParams])
  const RequestCall: Request := Request("2.0", 1, CallMethod, [EmptyParams.(stateBlockNumber := LatestState)])
  const RequestBundleStats: Request := Request("2.0", 1, StatsMethod, [EmptyParams])

  /** A JSON-RPC 2.0 call of `methodName` with id 1 and exactly one params object. */
  predicate IsEnvelope(r: Request, methodName: string) {
    r.jsonrpc == "2.0" && r.id == 1 && r.methodName == methodName && |r.params| == 1
  }

  /** The template with its single params object replaced by `p`. */
  function Fill(template: Request, p: Params): Request {
    template.(params := [p])
  }

  /** The `eth_sendBundle` request for a bundle targeting `blockNumber`. */
  function SendBundleRequest(txs: seq<string>, blockNumber: uint64): (r: Request)
    ensures IsEnvelope(r, SendMethod)
    ensures r.params[0].txs == txs
    ensures DecodeUint64(r.params[0].blockNumber) == Some(blockNumber)
    ensures r.params[0].stateBlockNumber == "" && r.params[0].bundleHash == ""
  {
    EncodeUint64RoundTrip(blockNumber);
    Fill(RequestSend, RequestSend.params[0].(blockNumber := EncodeUint64(blockNumber), txs := txs))
  }

  /** The `eth_callBundle` request simulating a bundle on the latest state. */
  function CallBundleRequest(txs: seq<string>): (r: Request)
    ensures IsEnvelope(r, CallMethod)
    ensures r.params[0].txs == txs
    ensures DecodeUint64(r.params[0].blockNumber) == Some(CallBlockDummy)
    ensures r.params[0].stateBlockNumber == LatestState && r.params[0].bundleHash == ""
  {
    EncodeUint64RoundTrip(CallBlockDummy);
    Fill(RequestCall, RequestCall.params[0].(txs := txs, blockNumber := EncodeUint64(CallBlockDummy)))
  }

  /** The `flashbots_getBundleStats` request for a previously submitted bundle. */
  function BundleStatsRequest(bundleHash: string, blockNumber: uint64): (r: Request)
    ensures IsEnvelope(r, StatsMethod)
    ensures r.params[0].bundleHash == bundleHash
    ensures DecodeUint64(r.params[0].blockNumber) == Some(blockNumber)
    ensures r.params[0].txs == [] && r.params[0].stateBlockNumber == ""
  {
    EncodeUint64RoundTrip(blockNumber);
    Fill(RequestBundleStats, RequestBundleStats.params[0].(bundleHash := bundleHash, blockNumber := EncodeUint64(blockNumber)))
  }

  /** The simulation anchor goes on the wire as this literal. */
  lemma CallBlockDummyOnWire()
    ensures CallBundleRequest([]).params[0].blockNumber == "0x5af3107a4000"
  {
    assert QuantityDigits(0x5) == "5";
    QuantityDigitsStep(0x5a, "5", 'a');
    QuantityDigitsStep(0x5af, "5a", 'f');
    QuantityDigitsStep(0x5af3, "5af", '3');
    QuantityDigitsStep(0x5af31, "5af3", '1');
    QuantityDigitsStep(0x5af310, "5af31", '0');
    QuantityDigitsStep(0x5af3107, "5af310", '7');
    QuantityDigitsStep(0x5af3107a, "5af3107", 'a');
    QuantityDigitsStep(0x5af3107a4, "5af3107a", '4');
    QuantityDigitsStep(0x5af3107a40, "5af3107a4", '0');
    QuantityDigitsStep(0x5af3107a400, "5af3107a40", '0');
    QuantityDigitsStep(0x5af3107a4000, "5af3107a400", '0');
  }
}

=== FILE: scenarios.dfy ===
/**
 * Whole-call properties of the client: which failures happen before any
 * network traffic, and the outcome of a call against a relay that always
 * answers the same way.
 */
module Scenarios {
  import opened Wrappers
  import opened Hex
  import opened Json
  import opened Protocol
  import opened Messages
  import opened Failures
  import opened Classifier
  import opened Signer
  import opened Client

  /** A signer that never fails, as `crypto.Sign` does for a valid key and a 32-byte digest. */
  ghost predicate SignerTotal(c: Crypto) {
    forall d, k :: c.sign(d, k).Some?
  }

  /** A transport that answers every POST with the same reply. */
  ghost predicate AlwaysReplies(env: Env, reply: HttpReply) {
    forall p :: env.transport(p) == reply
  }

  /** The address a POST's signature header names, if the header parses. */
  function SignerOf(p: Post): Option<Address> {
    match ParseHeader(p.signature)
    case None => None
    case Some(h) => Some(h.0)
  }

  /**
   * With no relay URL configured and an unsupported network, all three calls
   * fail with the network error and never reach the transport, whether or not
   * a key is set.
   */
  lemma UnsupportedNetworkFailsFirst(fb: Flashbot, env: Env, txs: seq<string>, bundleHash: string, blockNumber: uint64)
    requires fb.url == "" && fb.netId != 1 && fb.netId != 5
    ensures SendBundle(fb, env, txs, blockNumber) == Exchange(Failure(UnsupportedNetwork(fb.netId)), None)
    ensures CallBundle(fb, env, txs) == Exchange(Failure(UnsupportedNetwork(fb.netId)), None)
    ensures GetBundleStats(fb, env, bundleHash, blockNumber) == Exchange(Failure(UnsupportedNetwork(fb.netId)), None)
  {
  }

  /** Without a key no call reaches the transport, and every call fails. */
  lemma MissingKeyNeverPosts(fb: Flashbot, env: Env, txs: seq<string>, bundleHash: string, blockNumber: uint64)
    requires fb.keys.None?
    ensures SendBundle(fb, env, txs, blockNumber).posted.None? && SendBundle(fb, env, txs, blockNumber).outcome.Failure?
    ensures CallBundle(fb, env, txs).posted.None? && CallBundle(fb, env, txs).outcome.Failure?
    ensures GetBundleStats(fb, env, bundleHash, blockNumber).posted.None?
            && GetBundleStats(fb, env, bundleHash, blockNumber).outcome.Failure?
  {
    KeyRequired(env.crypto, Payload(env, SendBundleRequest(txs, blockNumber)));
    KeyRequired(env.crypto, Payload(env, CallBundleRequest(txs)));
    KeyRequired(env.crypto, Payload(env, BundleStatsRequest(bundleHash, blockNumber)));
  }

  /** A configured relay URL is used as given by every call, whatever the network id. */
  lemma ConfiguredUrlUsed(fb: Flashbot, env: Env, txs: seq<string>, bundleHash: string, blockNumber: uint64)
    requires fb.url != ""
    ensures SendBundle(fb, env, txs, blockNumber).posted.Some? ==>
              SendBundle(fb, env, txs, blockNumber).posted.value.url == fb.url
    ensures CallBundle(fb, env, txs).posted.Some? ==> CallBundle(fb, env, txs).posted.value.url == fb.url
    ensures GetBundleStats(fb, env, bundleHash, blockNumber).posted.Some? ==>
              GetBundleStats(fb, env, bundleHash, blockNumber).posted.value.url == fb.url
  {
  }

  /** Every POST of every call carries a header naming the address derived from the configured key. */
  lemma PostNamesSigner(fb: Flashbot, env: Env, prvKey: PrivateKey, txs: seq<string>, bundleHash: string, blockNumber: uint64)
    requires fb.keys == Some(SetKeys(env.crypto, prvKey))
    ensures SendBundle(fb, env, txs, blockNumber).posted.Some? ==>
              SignerOf(SendBundle(fb, env, txs, blockNumber).posted.value) == Some(env.crypto.pubkeyToAddress(prvKey))
    ensures CallBundle(fb, env, txs).posted.Some? ==>
              SignerOf(CallBundle(fb, env, txs).posted.value) == Some(env.crypto.pubkeyToAddress(prvKey))
    ensures GetBundleStats(fb, env, bundleHash, blockNumber).posted.Some? ==>
              SignerOf(GetBundleStats(fb, env, bundleHash, blockNumber).posted.value) == Some(env.crypto.pubkeyToAddress(prvKey))
  {
    ReqNamesSigner(fb, env, prvKey, SendBundleRequest(txs, blockNumber));
    ReqNamesSigner(fb, env, prvKey, CallBundleRequest(txs));
    ReqNamesSigner(fb, env, prvKey, BundleStatsRequest(bundleHash, blockNumber));
  }

  /** The POST `req` makes for any request carries the configured signer's address. */
  lemma ReqNamesSigner(fb: Flashbot, env: Env, prvKey: PrivateKey, r: Request)
    requires fb.keys == Some(SetKeys(env.crypto, prvKey))
    ensures Req(fb, env, r, fb.url).posted.Some? ==>
              SignerOf(Req(fb, env, r, fb.url).posted.value) == Some(env.crypto.pubkeyToAddress(prvKey))
  {
    var payload := Payload(env, r);
    if Req(fb, env, r, fb.url).posted.Some? {
      HeaderNamesSigner(env.crypto, prvKey, payload);
    }
  }

  /**
   * A mainnet bundle submission answered with HTTP 200 and a result whose
   * transactions report no error succeeds with that result, after exactly
   * one POST to the mainnet relay.
   */
  lemma SubmitAcknowledged(fb: Flashbot, env: Env, txs: seq<string>, body: Bytes, resultTree: Json, result: BundleResult)
    requires fb.netId == 1 && fb.url == "" && fb.keys.Some?
    requires env.validUrl(MainnetRelay) && SignerTotal(env.crypto)
    requires AlwaysReplies(env, Reply(200, Some(body), true))
    requires resultTree != JNull
    requires env.decoders.parse(body) == Some(ResultReply(resultTree))
    requires env.decoders.result(resultTree) == Some(result)
    requires |result.results| == 0 || result.results[0].error == ""
    ensures SendBundle(fb, env, txs, 100).outcome == Success(Response(NoError, result))
    ensures SendBundle(fb, env, txs, 100).posted.Some?
    ensures SendBundle(fb, env, txs, 100).posted.value.url == MainnetRelay
  {
    ResultReplyDecoded(resultTree, env.decoders);
  }

  /**
   * The same submission answered with a non-2xx status fails with that status,
   * the body read, and the method, after the single POST: the client does not retry.
   */
  lemma SubmitRejectedByStatus(fb: Flashbot, env: Env, txs: seq<string>, status: int, body: Bytes)
    requires fb.netId == 1 && fb.url == "" && fb.keys.Some?
    requires env.validUrl(MainnetRelay) && SignerTotal(env.crypto)
    requires AlwaysReplies(env, Reply(status, Some(body), true))
    requires !(200 <= status < 300)
    ensures SendBundle(fb, env, txs, 100).outcome == Failure(BadStatus(status, body, SendMethod))
    ensures SendBundle(fb, env, txs, 100).posted.Some?
  {
  }

  /**
   * A relay error reply to a stats request, under the declared reading: the
   * call succeeds with the zero error and zeroed stats.
   */
  lemma StatsRelayErrorMissed(fb: Flashbot, env: Env, bundleHash: string, blockNumber: uint64, body: Bytes, e: RelayError)
    requires fb.url != "" && fb.keys.Some?
    requires env.validUrl(fb.url) && SignerTotal(env.crypto)
    requires AlwaysReplies(env, Reply(200, Some(body), true))
    requires env.decoders.parse(body) == Some(ErrorReply(e))
    requires e.code != 0 && Int64Min <= e.code <= Int64Max
    ensures GetBundleStats(fb, env, bundleHash, blockNumber).outcome == Success(ResultBundleStats(NoError, EmptyStats))
  {
    StatsErrorReplyMissedAsWritten(env.decoders, body, e);
  }

  /** Under the corrected reading, the same relay error reply fails the call with the relay's error. */
  lemma StatsRelayErrorSurfaces(fb: Flashbot, env: Env, bundleHash: string, blockNumber: uint64, body: Bytes, e: RelayError)
    requires fb.url != "" && fb.keys.Some?
    requires env.validUrl(fb.url) && SignerTotal(env.crypto)
    requires AlwaysReplies(env, Reply(200, Some(body), true))
    requires env.decoders.parse(body) == Some(ErrorReply(e))
    requires e.code != 0 && Int64Min <= e.code <= Int64Max
    ensures GetBundleStatsCorrected(fb, env, bundleHash, blockNumber).outcome == Failure(StatsRejected(e))
  {
    StatsErrorReplyMissedAsWritten(env.decoders, body, e);
  }
}

=== FILE: signer.dfy ===
/**
 * Relay authentication: the key material `SetKeys` installs and the
 * `X-Flashbots-Signature` header `signPayload` computes. Hashing, signing and
 * address derivation are supplied as opaque functions; the header's layout and
 * the checksummed address rendering (`common.Address.Hex`) are modelled.
 */
module Signer {
  import opened Wrappers
  import opened Hex
  import opened Failures

  type Hash32 = b: Bytes | |b| == 32 witness seq(32, _ => 0)
  type Address = b: Bytes | |b| == 20 witness seq(20, _ => 0)

  /** A secp256k1 private key, held opaquely. */
  datatype PrivateKey = PrivateKey(scalar: nat)

  /** The cryptographic primitives of go-ethereum's crypto and accounts packages. */
  datatype Crypto = Crypto(
    pubkeyToAddress: PrivateKey -> Address,
    keccak256: Bytes -> Hash32,
    textHash: Bytes -> Hash32,
    sign: (Hash32, PrivateKey) -> Option<Bytes>)

  /** The private key and the address derived from it, installed together. */
  datatype Keys = Keys(prvKey: PrivateKey, publicAddr: Address)

  /** `SetKeys`: keep the key and its derived address. */
  function SetKeys(c: Crypto, prvKey: PrivateKey): (k: Keys)
    ensures k.prvKey == prvKey
    ensures k.publicAddr == c.pubkeyToAddress(prvKey)
  {
    Keys(prvKey, c.pubkeyToAddress(prvKey))
  }

  /** The nibble of the address hash that decides the case of hex digit `i`. */
  function HashNibble(h: Hash32, i: nat): (n: nat)
    requires i < 64
    ensures n < 16
  {
    if i % 2 == 0 then h[i / 2] / 16 else h[i / 2] % 16
  }

  /** EIP-55: a letter digit is upper-cased where the matching hash nibble is above 7. */
  function ApplyChecksum(lower: string, h: Hash32): (s: string)
    requires |lower| <= 64 && IsLowerHex(lower)
    ensures |s| == |lower| && IsHex(s) && IsAscii(s)
    ensures forall i :: 0 <= i < |s| ==> LowerAscii(s[i]) == lower[i]
  {
    seq(|lower|, i requires 0 <= i < |lower| =>
      if lower[i] > '9' && HashNibble(h, i) > 7 then UpperAscii(lower[i]) else lower[i])
  }

  /** `common.Address.Hex`: "0x" and the checksummed 40 hex digits of the address. */
  function AddressHex(c: Crypto, a: Address): (s: string)
    ensures |s| == 42 && s[..2] == "0x"
    ensures IsHex(s[2..]) && BytesOfHex(s[2..]) == a
    ensures forall i :: 0 <= i < |s| ==> s[i] != ':'
  {
    var lower := HexOfBytes(a);
    LowerHexIsAscii(lower);
    var digits := ApplyChecksum(lower, c.keccak256(AsciiBytes(lower)));
    BytesOfHexIgnoresCase(digits, lower);
    BytesOfHexOfBytes(a);
    var s := "0x" + digits;
    assert s[2..] == digits;
    s
  }

  /**
   * The digest that is signed: the Keccak-256 hash of the payload, rendered as
   * "0x"-prefixed hex text, under the personal-message prefix of `accounts.TextHash`.
   */
  function SigningDigest(c: Crypto, payload: Bytes): Hash32 {
    c.textHash(AsciiBytes(EncodeBytes(c.keccak256(payload))))
  }

  /** The header value: the signer's address, one ':', the hex signature. */
  function SignatureHeader(c: Crypto, a: Address, signature: Bytes): string {
    AddressHex(c, a) + ":" + EncodeBytes(signature)
  }

  /** `signPayload`. */
  function SignPayload(c: Crypto, keys: Option<Keys>, payload: Bytes): (r: Result<string, Error>)
    ensures keys.None? ==> r == Failure(KeyNotSet)
    ensures keys.Some? && c.sign(SigningDigest(c, payload), keys.value.prvKey).None? ==> r == Failure(SigningFailed)
    ensures keys.Some? && c.sign(SigningDigest(c, payload), keys.value.prvKey).Some? ==>
              r == Success(SignatureHeader(c, keys.value.publicAddr, c.sign(SigningDigest(c, payload), keys.value.prvKey).value))
  {
    match keys
    case None => Failure(KeyNotSet)
    case Some(k) =>
      match c.sign(SigningDigest(c, payload), k.prvKey)
      case None => Failure(SigningFailed)
      case Some(signature) => Success(SignatureHeader(c, k.publicAddr, signature))
  }

  /** The index of the first ':' in `s`, if any. */
  function ColonIndex(s: string): (r: Option<nat>)
    ensures r.Some? ==> r.value < |s| && s[r.value] == ':' && forall i :: 0 <= i < r.value ==> s[i] != ':'
    ensures r.None? ==> forall i :: 0 <= i < |s| ==> s[i] != ':'
  {
    if |s| == 0 then None
    else if s[0] == ':' then Some(0)
    else
      match ColonIndex(s[1..])
      case None => None
      case Some(k) => Some(k + 1)
  }

  /** Read back a "0x"-prefixed hex byte string of either case. */
  function ReadHexBytes(s: string): Option<Bytes> {
    if |s| >= 2 && s[..2] == "0x" && IsHex(s[2..]) && |s| % 2 == 0 then Some(BytesOfHex(s[2..])) else None
  }

  /** How a relay reads the header back: split at the first ':', then decode both halves. */
  function ParseHeader(h: string): Option<(Address, Bytes)> {
    var k :- ColonIndex(h);
    var a :- ReadHexBytes(h[..k]);
    var signature :- ReadHexBytes(h[k + 1..]);
    if |a| == 20 then Some((a, signature)) else None
  }

  predicate NoColon(s: string) {
    forall i :: 0 <= i < |s| ==> s[i] != ':'
  }

  lemma EncodedBytesNoColon(b: Bytes)
    ensures NoColon(EncodeBytes(b))
  {
    var s := EncodeBytes(b);
    assert forall i :: 2 <= i < |s| ==> s[i] == s[2..][i - 2];
  }

  lemma {:induction false} ColonIndexOfJoin(x: string, y: string)
    requires NoColon(x)
    ensures ColonIndex(x + ":" + y) == Some(|x|)
    decreases |x|
  {
    if |x| > 0 {
      assert (x + ":" + y)[1..] == x[1..] + ":" + y;
      ColonIndexOfJoin(x[1..], y);
    }
  }

  lemma NoColonCount(s: string)
    requires NoColon(s)
    ensures multiset(s)[':'] == 0
  {
  }

  /** The header has exactly one ':'. */
  lemma HeaderHasOneColon(c: Crypto, a: Address, signature: Bytes)
    ensures multiset(SignatureHeader(c, a, signature))[':'] == 1
  {
    var addr := AddressHex(c, a);
    var sig := EncodeBytes(signature);
    EncodedBytesNoColon(signature);
    NoColonCount(addr);
    NoColonCount(sig);
    assert multiset(addr + ":" + sig) == multiset(addr) + multiset([':']) + multiset(sig);
  }

  /** Splitting the header at its ':' gives back the signer's address and the signature. */
  lemma HeaderRoundTrip(c: Crypto, a: Address, signature: Bytes)
    ensures ParseHeader(SignatureHeader(c, a, signature)) == Some((a, signature))
  {
    var addr := AddressHex(c, a);
    var sig := EncodeBytes(signature);
    var h := addr + ":" + sig;
    ColonIndexOfJoin(addr, sig);
    assert h[..|addr|] == addr;
    assert h[|addr| + 1..] == sig;
    assert ReadHexBytes(addr) == Some(a);
    assert ReadHexBytes(sig) == Some(signature);
  }

  /** Without a key there is no header at all. */
  lemma KeyRequired(c: Crypto, payload: Bytes)
    ensures SignPayload(c, None, payload).Failure?
  {
  }

  /** The address half of every header is the one `SetKeys` derived from the key. */
  lemma HeaderNamesSigner(c: Crypto, prvKey: PrivateKey, payload: Bytes)
    requires SignPayload(c, Some(SetKeys(c, prvKey)), payload).Success?
    ensures ParseHeader(SignPayload(c, Some(SetKeys(c, prvKey)), payload).value).Some?
    ensures ParseHeader(SignPayload(c, Some(SetKeys(c, prvKey)), payload).value).value.0 == c.pubkeyToAddress(prvKey)
  {
    var signature := c.sign(SigningDigest(c, payload), prvKey).value;
    HeaderRoundTrip(c, c.pubkeyToAddress(prvKey), signature);
  }
}

=== FILE: wrappers.dfy ===
/** Failure-compatible wrappers used throughout the model. */
module Wrappers {

  /** An optional value: the model's stand-in for a Go nil pointer or an absent field. */
  datatype Option<+T> = None | Some(value: T) {
    predicate IsFailure() {
      None?
    }

    function PropagateFailure<U>(): Option<U>
      requires None?
    {
      None
    }

    function Extract(): T
      requires Some?
    {
      value
    }

    /** The value as a success, or the given error when there is none. */
    function ToResultOr<E>(error: E): Result<T, E> {
      match this
      case Some(v) => Success(v)
      case None => Failure(error)
    }
  }

  /** A value or an error: the model's stand-in for Go's `(T, error)` pair. */
  datatype Result<+R, +E> = Success(value: R) | Failure(error: E) {
    predicate IsFailure() {
      Failure?
    }

    function PropagateFailure<U>(): Result<U, E>
      requires Failure?
    {
      Failure(error)
    }

    function Extract(): R
      requires Success?
    {
      value
    }
  }
}
